=== FILE: README.md ===
# Epidemic simulations in Dafny

This project models the three simulation programs of a small epidemic-modelling repository.

- **The deterministic SIRXD model** (`sim_epidemic.dfy`, module `SimEpidemic`).
  - There are seven compartments: susceptible S, infectious I, recovered R, quarantined
    susceptible Xs and infectious Xi, and the naturally and epidemically deceased Dn and Di.
  - One explicit Euler step moves people between them, adds births, clamps every compartment
    at 0 and recomputes the living total N = S+I+R+Xs+Xi.
  - A driver loop runs the step T−1 times. It can first adapt the birth rate to the deaths, and it
    records one series per compartment.
- **The population simulation** (`corona.dfy`, module `Corona`).
  - A mutable parameter set is updated field by field. An argument replaces the stored rate only
    when it is truthy in Python's sense, so `None` and `0` are both ignored.
  - Event rules are objects. Each has a condition, parameter overrides, an optional callback and
    an `alive` flag.
  - A population holds the SIRXD class sizes, their recorded series, its parameters and its
    subscribed rules.
  - Each tick of its run loop does three things:
    - it drops dead rules, evaluates every condition against the state before the pass, and
      executes the true rules in list order;
    - it steps the SIRXD model with the current parameters;
    - it appends the new sizes to the series.
  - The run stops early once no susceptibles are left.
- **The agent-based SIR simulation** (`stochastic_sim_epidemic.dfy`, module `StochasticSim`).
  - People are objects with a home on a grid, a health state and an infection clock.
  - A person who goes outside meets the people outside within squared distance 64, and the
    infection passes on a successful coin.
  - An infectious person recovers once the infection has lasted the drawn recovery time, which is
    at least 24 hours.
  - One sampler counts the people in each state. The other estimates λ, β, γ, R0 and Reff over a
    24-sample window, each quotient guarded against a zero divisor.

`wrappers.dfy` holds the `Option` and `Result` types. Python exceptions become `Failure` values:

- `ZeroDivisionError` from a zero living total;
- `TypeError` from an undefined β, or from a missing population total at construction.

Random draws (homes, lifespans, durations, coins) are parameters. The time `now` is a parameter
of every method that reads the clock.

Four consequences of the code are worth stating on their own:

- `set_parameters` treats an explicit `0` like an omitted argument, so `0` cannot reset a rate.
  `MergeRates` and `EpidemicParameters.SetParameters` keep the stored value for any falsy
  argument, and `FalsyUpdateChangesNothing` states the consequence.
- With S=999, I=1, β=0.5 and γ=0.1, one unit step gives dS = −0.4995, dI = 0.3995 and dR = 0.1
  (`OneInfectiousDeltas`), so S becomes 998.5005, I becomes 1.3995 and R becomes 0.1.
- A rule with `keep_alive` false is killed after it executes, but a rule listed twice runs twice
  in one pass. `PassExecutesSubscribedRulesOnce` states that a rule listed once runs at most once
  per pass, and `Population.SpentRulesDead` states that an executed once-only rule is dead, hence
  dropped before the next pass.
- The adaptive birth rate v = μ + δ·(I+Xi)·dt/N balances the deaths only for a unit step: with it,
  the unclamped living total changes by δ·(I+Xi)·dt·(dt−1) (`AdaptiveDrift`).

## Model

| member | source | states |
|---|---|---|
| SimEpidemic.UpdatePopulation | src/sim_epidemic.py:6-90 | fails with a zero division exactly when S+I+R+Xs+Xi is 0; otherwise N is the sum of the five living compartments and each compartment, separately, is max(old value + its delta, 0): it is its old value plus its delta when that is non-negative and 0 otherwise |
| SimEpidemic.Deltas | src/sim_epidemic.py:39-61 | the deltas are all 0 when dt is 0 or when every rate is 0 |
| SimEpidemic.LivingChange | src/sim_epidemic.py:39-61 | the unclamped moves change N by the births v·N·dt minus the deaths (μ·N + δ·(I+Xi))·dt |
| SimEpidemic.ClampAll | src/sim_epidemic.py:72-86 | each compartment, separately, becomes max(x, 0): a non-negative value is kept and a negative one becomes 0, so the result is non-negative and equals the input when that was non-negative |
| SimEpidemic.Clamp | src/sim_epidemic.py:73-74 | the clamped value is max(x, 0) |
| SimEpidemic.UpdateGroups | src/sim_epidemic.py:92-93 | the tuple form gives exactly the result of the spread-argument step, failing exactly when the living total is 0 |
| SimEpidemic.DeltasSumToBirths | src/sim_epidemic.py:43-61 | the seven deltas add up to the births v·N·dt: every other flow moves people between compartments |
| SimEpidemic.UnclampedStepAddsOnlyBirths | src/sim_epidemic.py:43-70 | when no compartment is clamped, the step succeeds, each result is old value plus delta, and the seven-compartment total rises by exactly v·N·dt |
| SimEpidemic.DeathsNeverDecrease | src/sim_epidemic.py:58-70 | with non-negative sizes, rates and dt, Dn and Di never decrease |
| SimEpidemic.DeathDeltasNonNegative | src/sim_epidemic.py:58-61 | with non-negative sizes, rates and dt, the deltas of Dn and Di are both at least 0 |
| SimEpidemic.ZeroRatesLeaveGroupsUnchanged | src/sim_epidemic.py:43-70 | with every rate 0, a step from valid (non-negative, non-zero living total) compartments returns the same compartments and their living total |
| SimEpidemic.SirSpecialCase | src/sim_epidemic.py:43-49 | with only β and γ non-zero and no one quarantined, the deltas are the classic SIR flows −βSI/N, βSI/N−γI, γI |
| SimEpidemic.OneInfectiousDeltas | src/sim_epidemic.py:40-49 | for S=999, I=1, β=0.5, γ=0.1, dt=1 the deltas are dS=−0.4995, dI=0.3995, dR=0.1 and 0 elsewhere |
| SimEpidemic.AdaptedBirthRateBalancesDeaths | src/sim_epidemic.py:108-111 | for any dt, the adapted birth rate gives v·N = μ·N + δ·(I+Xi)·dt: for dt = 1 births equal natural plus epidemic deaths |
| SimEpidemic.AdaptedBirthRate | src/sim_epidemic.py:108-111 | the adapted rate is μ whenever δ, I+Xi or dt is 0 |
| SimEpidemic.AdaptiveDrift | src/sim_epidemic.py:39-61 | with the adapted birth rate for step length dt, the unclamped moves change N by δ·(I+Xi)·dt·(dt−1), which is 0 only for dt = 0 or 1 when δ·(I+Xi) ≠ 0 |
| SimEpidemic.DriftWithScaledBirths | src/sim_epidemic.py:39-61 | when births v·N are μ·N + δ·(I+Xi)·dt, the unclamped moves change N by δ·(I+Xi)·dt·(dt−1) |
| SimEpidemic.DeathDeltas | src/sim_epidemic.py:58-61 | Dn and Di together grow by (μ·N + δ·(I+Xi))·dt |
| SimEpidemic.BalancedBirthsKeepLivingTotal | src/sim_epidemic.py:43-70 | when births balance deaths, the unclamped moves keep the living total N unchanged |
| SimEpidemic.AdaptiveMovesKeepLivingTotal | src/sim_epidemic.py:108-118 | with the adapted birth rate, the unclamped moves of a unit step keep N unchanged |
| SimEpidemic.AdaptiveStepKeepsLivingTotal | src/sim_epidemic.py:106-118 | with the adapted birth rate and nothing clamped, one driver step succeeds and returns the N it started from |
| SimEpidemic.DriverStep | src/sim_epidemic.py:108-118 | one driver iteration fails exactly when the living total is 0 and otherwise yields non-negative compartments whose living sum is N |
| SimEpidemic.Initial | src/sim_epidemic.py:99-100 | the driver starts with I infectious, the living total N, nobody deceased, and non-negative compartments when 0 ≤ I ≤ N |
| SimEpidemic.StepCount | src/sim_epidemic.py:105 | defines the number of steps `range(1, T)` runs: T−1 for T ≥ 1 and none otherwise |
| SimEpidemic.Trajectory | src/sim_epidemic.py:99-128 | a successful run records steps+1 states, starting with the initial one, each later state non-negative with N the living sum |
| SimEpidemic.FailedStepStaysFailed | src/sim_epidemic.py:106-118 | a run whose first steps failed still fails, with the same error, after one more step |
| SimEpidemic.FailureIsFinal | src/sim_epidemic.py:106-118 | once a run has failed, running it longer fails with the same error |
| SimEpidemic.ThenRecords | src/sim_epidemic.py:120-128 | appending a state keeps the eight series the same length, makes the state their last entry and keeps earlier entries |
| SimEpidemic.SeriesOfSnoc | src/sim_epidemic.py:120-128 | recording one more state appends one entry to each series |
| SimEpidemic.TrajectorySeries | src/sim_epidemic.py:99-128 | every series of a successful run has steps+1 entries; entry 0 of each of the eight series is the start state's S, I, R, Xs, Xi, Dn, Di and N; every later entry is non-negative with N the living sum |
| SimEpidemic.DriverStepCalls | src/sim_epidemic.py:108-118 | one driver iteration is the population update called with β, γ, δ, κs, κi, κe, μ and dt unchanged and with v either the stored birth rate or, when adapting, the rebalanced one |
| SimEpidemic.TrajectoryNext | src/sim_epidemic.py:106-118 | after a successful prefix of `step` states, the next iteration either appends its result to the run or, if it fails, the whole run fails with that error |
| SimEpidemic.DriverSeries | src/sim_epidemic.py:96-128 | the driver's result fails exactly when the run does; otherwise each of the eight series has max(T,1) entries, starts at S = N−I, I, R = Xs = Xi = Dn = Di = 0 and N, and every later entry is non-negative with N the living sum |
| SimEpidemic.SimEpidemicSirxd | src/sim_epidemic.py:96-128 | the driver loop returns the series recorded along the trajectory from (N−I, I, 0, …) over max(T,1)−1 steps, or the error at which that trajectory stops; this is the result whose lengths, start and bounds DriverSeries states |
| Corona.Truthy | src/corona.py:51-61 | defines Python truthiness of an optional number: falsy exactly when it is None or 0 |
| Corona.MergeRates | src/corona.py:49-61 | each field takes its argument when the argument is truthy (not None, not 0) and keeps the stored value otherwise |
| Corona.FalsyUpdateChangesNothing | src/corona.py:49-61 | an update whose arguments are all None or 0 changes nothing: 0 cannot reset a rate |
| Corona.MergeIdempotent | src/corona.py:49-61 | applying the same update twice equals applying it once |
| Corona.MergeKeepsBetaDefined | src/corona.py:60 | once β is defined no update makes it undefined, and it changes only to a non-zero value |
| Corona.MergeTwice | src/corona.py:49-61 | two updates in a row equal one update holding, per field, the later truthy argument |
| Corona.MergeAllIsOneMerge | src/corona.py:45-61 | any sequence of updates acts as one update holding the last truthy argument of each field |
| Corona.EpidemicParameters.constructor | src/corona.py:32-43 | a new parameter set holds the given rates; by default every rate is 0 and β, λ are undefined |
| Corona.EpidemicParameters.Copy | src/corona.py:139 | the copy holds the same values as the original |
| Corona.EpidemicParameters.SetParameters | src/corona.py:49-61 | the new parameter values are the truthy merge of the arguments into the old ones |
| Corona.EpidemicParameters.SetParametersFromEvent | src/corona.py:45-47 | the new parameter values are the truthy merge of the rule's eleven overrides into the old ones |
| Corona.EpidemicEvent.constructor | src/corona.py:63-83 | a new rule holds the given name, condition, keep-alive flag, overrides and callback, is alive and has not been executed |
| Corona.EpidemicEvent.CheckCondition | src/corona.py:85-92 | a rule fires only when its condition holds; a condition that cannot be evaluated counts as false |
| Corona.EpidemicEvent.Execute | src/corona.py:94-99 | executing merges the overrides into the population's parameters, sets alive to keep_alive; without a callback the rule list is unchanged, and with one the rules the callback describes for the population's current snapshot are appended, one per description, in order, each new, alive, unexecuted and with the described name, condition, keep-alive flag, overrides and callback |
| Corona.Purge | src/corona.py:183 | the kept rules are exactly the alive ones, each as often as it was listed, in a list no longer than the original |
| Corona.PurgeSingle | src/corona.py:183 | a one-rule list is kept when the rule is alive and emptied otherwise |
| Corona.PurgeAppend | src/corona.py:183 | purging a concatenation purges each part and concatenates the results, so with PurgeSingle the survivors keep their list order |
| Corona.Fired | src/corona.py:185 | the due rules are exactly those whose condition holds, each as often as it was listed |
| Corona.FiredSingle | src/corona.py:185 | a one-rule list is due when the rule's condition holds and empty otherwise |
| Corona.FiredAppend | src/corona.py:185 | selecting the due rules of a concatenation selects those of each part and concatenates them, so with FiredSingle the due rules keep their list order |
| Corona.DeadRuleDoesNotFire | src/corona.py:183-185 | a rule dead at the start of a pass is not executed in it |
| Corona.PassExecutesSubscribedRulesOnce | src/corona.py:183-187 | a rule subscribed once is executed at most once per pass, and exactly when it is alive and its condition holds |
| Corona.AcceptedItems | src/corona.py:168-179 | the accepted items are exactly the rule items, in order; anything else is skipped |
| Corona.AcceptedItemsAppend | src/corona.py:175-177 | accepting a concatenation accepts each part and concatenates the results, so the order of the rules is kept |
| Corona.AcceptedSingle | src/corona.py:175-177 | a single item is accepted as a one-rule list when it is a rule and skipped otherwise |
| Corona.InitialClasses | src/corona.py:121-153 | construction fails exactly when the total is missing, or is 0 while S is missing; a non-zero total fixes S so that the living classes add up to it; the other classes are as passed |
| Corona.PopulationStep | src/corona.py:198-201 | a tick's model step fails with an undefined-rate error when β is None and otherwise is the SIRXD step with ωs, ωi, ωe as κs, κi, κe and dt = 1 |
| Corona.Population.constructor | src/corona.py:116-163 | the classes come from the caps, N is their living sum, every series starts with its initial value, the parameters are a fresh copy (or the defaults), and the accepted rules are subscribed |
| Corona.Population.Observe | src/corona.py:88-89 | defines the snapshot a condition or callback sees: the time, the current classes, N and the current parameter values |
| Corona.Population.SubscribeEvent | src/corona.py:168-179 | the accepted rules are appended, in order, after the existing ones |
| Corona.Population.SubscribeNew | src/corona.py:97-98 | one new, alive, unexecuted rule per description is appended, in order, with its name, condition, keep-alive flag, overrides and callback |
| Corona.AppendsDescribedChain | src/corona.py:186-187 | appending the rules described by one list and then those described by a second is appending the rules described by both lists in turn |
| Corona.Population.ExecuteInOrder | src/corona.py:186-187 | the parameters become the due rules' overrides merged in list order; each due rule ends with alive = keep_alive and is executed once per listing; the list grows by exactly the rules the callbacks describe (`AppendedBy`: the j-th callback sees the rates with the first j+1 overrides merged in), one new, alive, unexecuted rule per description, in order |
| Corona.Population.ExecuteNext | src/corona.py:186-187 | executing the next due rule merges its overrides, sets its alive flag to keep_alive, counts one more execution and appends the rules its callback describes after those of the earlier rules |
| Corona.Population.ExecuteEvents | src/corona.py:181-187 | the dead rules are dropped; the rules whose condition held before the pass are executed in list order, once per listing, with the parameters ending as their overrides merged in order; the rules the callbacks describe (`AppendedBy`) are appended after the survivors, new, alive and not executed in the pass; a dead rule stays dead and unexecuted; if every executed once-only rule was dead before the pass, so is every one after it |
| Corona.Population.ExecuteSelected | src/corona.py:185-187 | the second half of a pass over the surviving rules: the same execution, appending and dead-rule facts as ExecuteEvents, stated for the purged list |
| Corona.Population.Record | src/corona.py:203-211 | each class becomes its new value, each series gains that value as its last entry, and all series stay the same length |
| Corona.Population.Tick | src/corona.py:191-217 | one tick runs one pass with all of ExecuteEvents' facts (parameters, alive flags, execution counts, appended described rules), then steps with the updated parameters (a failed step changes no class and is reported as a crash with its error), records the result, and reports extinction exactly when S ≤ 0; a once-only rule that had already run is not executed again |
| Corona.Population.StepAndRecord | src/corona.py:198-215 | the model step with the current parameters either fails, changing nothing and reporting the error, or sets every class to its result and appends it to every series, with extinction reported exactly when S ≤ 0 |
| Corona.Population.Run | src/corona.py:189-217 | the run appends one entry per completed tick to every series, and for `rates`, one rate vector per completed tick, every new entry is the population step, under its tick's rate vector, of the entry before it (the run-level contract does not say these are the parameters the ticks' rule passes left; `Advance` states that per tick); it stops after the first tick with S ≤ 0, or at a step that raises (then fewer ticks than the horizon and the step from the final classes with the final parameters fails with that error), otherwise runs to the horizon; every S recorded before the last tick is positive, and a once-only rule that had already run is never executed again during the run |
| Corona.Population.Advance | src/corona.py:191-217 | one iteration of the run loop: a tick whose rule pass leaves the parameters as the due rules' overrides merged in list order (as in `Tick`); the tick then either crashes, leaving the series and `rates` unchanged, with the step from the current classes under the current parameters failing with that error, or appends one entry that is the step under the current parameters, and `rates` grows by exactly those parameters (`next == rates + [params]`); the run's invariants (series extended, every new S but the last positive, the last too unless extinct, spent once-only rules' execution counts unchanged) are kept |
| Corona.RecordsStepsThen | src/corona.py:198-211 | appending the result of a successful step to the series extends the recorded steps by that step's rate vector |
| Corona.RateRelative | src/corona.py:222-226 | the result r satisfies r·(100−p) = a·p; a share of 100 divides by zero |
| Corona.SetBetaWithR0 | src/corona.py:245-246 | the β returned gives β/γ = R0 |
| StochasticSim.DistanceSquared | src/stochastic_sim_epidemic.py:25-28 | the squared distance is never negative |
| StochasticSim.DistanceSymmetric | src/stochastic_sim_epidemic.py:25-28 | the squared distance is symmetric |
| StochasticSim.DistanceZeroIffEqual | src/stochastic_sim_epidemic.py:25-28 | for locations with equally many coordinates the distance is 0 exactly when they are equal |
| StochasticSim.AfterRecover | src/stochastic_sim_epidemic.py:254-259 | the state changes exactly when an infectious person has been infected for at least the recovery time, and then becomes recovered |
| StochasticSim.NameGenerator.constructor | src/stochastic_sim_epidemic.py:130-131 | the counter starts at 0 with no id issued |
| StochasticSim.NameGenerator.GenName | src/stochastic_sim_epidemic.py:127-134 | each id is one more than the previous, starting at 1, and larger than every id issued before |
| StochasticSim.Person.Init | src/stochastic_sim_epidemic.py:140-154 | a newborn keeps a truthy given name and home or takes the next id and the drawn home; it is at home, not outside, born now, in the given state, with infection time 0 and recovery time max(drawn, 24) |
| StochasticSim.Person.constructor | src/stochastic_sim_epidemic.py:140-154 | the same newborn state for a new person, susceptible by default |
| StochasticSim.Person.Rebirth | src/stochastic_sim_epidemic.py:244-246 | a reborn person gets a new id and home, is at home and susceptible, born now, with a fresh recovery time of at least 24 |
| StochasticSim.Person.GetInfected | src/stochastic_sim_epidemic.py:249-252 | the state becomes infectious and the infection time now; nothing else changes |
| StochasticSim.Person.Recover | src/stochastic_sim_epidemic.py:254-259 | only the state can change, from infectious to recovered once the infection has lasted the recovery time |
| StochasticSim.Person.GoOutside | src/stochastic_sim_epidemic.py:207-235 | the person is outside at the new location; a susceptible catches the infection exactly when someone infectious is near and the coin succeeds; an infectious one infects exactly the nearby susceptibles whose coins succeed; a recovered one changes no one |
| StochasticSim.Person.ComeHome | src/stochastic_sim_epidemic.py:240-242 | after the visit the person is home and not outside |
| StochasticSim.Nearby | src/stochastic_sim_epidemic.py:217-229 | the listed people are exactly those outside, in the wanted state, within squared distance 64 |
| StochasticSim.NearbySingle | src/stochastic_sim_epidemic.py:217-229 | a one-person list keeps the person exactly when outside, in the wanted state and within squared distance 64 |
| StochasticSim.NearbyAppend | src/stochastic_sim_epidemic.py:217-229 | the people near a location in a concatenation are those of each part, in turn, so with NearbySingle the list keeps the people's order and repetitions |
| StochasticSim.Spread | src/stochastic_sim_epidemic.py:231-234 | exactly the listed people whose coins succeed become infectious as of now; the others are unchanged |
| StochasticSim.Infected | src/stochastic_sim_epidemic.py:231-234 | the infected set holds exactly the listed people whose coin succeeds |
| StochasticSim.CountOf | src/stochastic_sim_epidemic.py:63-71 | the count of one state is at most the number of people |
| StochasticSim.CountOfZeroIffAbsent | src/stochastic_sim_epidemic.py:63-71 | a state's count is 0 exactly when nobody is in that state |
| StochasticSim.CountOfSnoc | src/stochastic_sim_epidemic.py:65-71 | looking at one more person raises the count of that person's state by one and leaves the other counts unchanged |
| StochasticSim.CountsSumToLength | src/stochastic_sim_epidemic.py:63-71 | the three counts add up to the number of people |
| StochasticSim.Count | src/stochastic_sim_epidemic.py:63-71 | the counting loop yields the number of people in each state, and the three add up to everybody |
| StochasticSim.Estimate | src/stochastic_sim_epidemic.py:97-104 | λ·S = −dS, β·I = λ·N, γ·I = dR, R0·γ = β and Reff·N = R0·S, where a quotient with a zero divisor is 0 |
| StochasticSim.R0IndependentOfInfectious | src/stochastic_sim_epidemic.py:100-103 | with S, I and dR non-zero, R0·dR·S = −dS·N: the infectious count cancels out |
| StochasticSim.History.constructor | src/stochastic_sim_epidemic.py:53-54 | the group samples start empty and the statistics start with one all-zero entry |
| StochasticSim.History.UpdateGroups | src/stochastic_sim_epidemic.py:55-84 | one sample is appended with the time and the three counts, which add up to the number of people; the sampler stops exactly when nobody is infectious |
| StochasticSim.History.UpdateStats | src/stochastic_sim_epidemic.py:86-119 | with more than a window of samples, the estimate over the last window is appended and the sampler stops exactly when nobody is infectious; otherwise nothing changes |

## Left out

- The simpy scheduler (`env.process`, `timeout`, `interrupt`), the `life` generator loop, `sleep`, `stay_home`, and the interruption of life processes when the infection dies out. Each phase is one method call, and the time is passed in.
- `eval` of condition strings: a condition is a function from a snapshot of the population to holds, does not hold, or cannot be evaluated.
- A callback runs arbitrary Python. It is modelled as a function from the snapshot to descriptions of new rules, which the population subscribes. Other effects a callback could have are not modelled.
- Random draws (`random`, `randint`, `gauss`, `choices`, `seed`, `randlocation`, `randbool`) are inputs. The infection probability 0.1 is therefore not used.
- Floating point: all quantities are unbounded reals or integers, so IEEE rounding and overflow are not modelled.
- `absolute_to_growrate` (a fractional power), the calibration constants and the setup in the `__main__` blocks.
- Plotting (`sirxd_plot`, `plot_population`, `plot_results`), `print` and `debug` output.
- `num_infectious` and `Person.age` are one-line reads that the model does not need.
- The stray global `env` in the run loop and the `is type(list)` test in `subscribe_event`: the model follows their evident intent, a timeout of one step and a single rule treated as a one-element list.
- The warnings the population constructor prints for small or negative caps do not stop construction and are not modelled. A missing total, whose `None < 0` comparison raises, is the `TypeError` failure of `InitialClasses`.
- Corona.Population.constructor: requires the caps to be accepted. The raising case is stated by `InitialClasses`, not by the constructor.
- Corona.RateVector: a rate other than β set to `None` is not representable. Only β and λ may be undefined, as in the defaults.
- Corona.Population: the seven class fields are held together as one `Groups` value, and the eight `*_data` lists as one `Series` value.
- StochasticSim.History: the four group lists T, S, I, R are held as one list of samples, and the five statistics lists as one list of estimates, so they grow together by construction.
- StochasticSim.Person.GoOutside: the nearby list is computed before the person moves. It never contains the person, who is in a different state from the one searched for, so the list is the same.
- Corona.Population.Run: the rules the callbacks append are stated per tick (by `Tick`), not accumulated over the whole run.
- Corona.Population.Run: at run level `rates` is tied to the recorded entries only. The run-level contract does not say that each rate vector is the parameters left by that tick's rule pass. `Tick` and `Advance` state that per tick, and carrying it through the loop made the run's proof too costly for the verifier.

=== FILE: corona.dfy ===
/**
 * The population simulation: a mutable set of epidemic parameters, event rules that
 * overwrite those parameters when their condition holds, and a population whose run loop
 * executes the due events and then steps the SIRXD model once per tick.
 */
module Corona {
  import opened Wrappers
  import SimEpidemic

  /** Step width of one tick, in days. */
  const STEP: real := 1.0

  /** Number of ticks a simulation runs. */
  const END: nat := 1750

  // ----- epidemic parameters -----

  /**
   * The eleven stored parameters: births v, natural deaths μ, recoveries γ, contacts κ,
   * quarantine rates ωs, ωi, ωe, infection risk q, epidemic deaths δ, and the infection
   * rate β and force of infection λ, which start out undefined.
   */
  datatype RateVector = RateVector(v: real, mu: real, gamma: real, kappa: real, omegaS: real, omegaI: real,
                                   omegaE: real, q: real, delta: real, beta: Option<real>, lambda: Option<real>)

  /** What a parameter set holds when it is created without arguments. */
  const DefaultRates := RateVector(0.0, 0.0, 0.0, 0.0, 0.0, 0.0, 0.0, 0.0, 0.0, None, None)

  /** The eleven optional arguments of a parameter update; `None` stands for an omitted argument. */
  datatype RateOverrides = RateOverrides(v: Option<real>, mu: Option<real>, gamma: Option<real>, kappa: Option<real>,
                                         omegaS: Option<real>, omegaI: Option<real>, omegaE: Option<real>,
                                         q: Option<real>, delta: Option<real>, beta: Option<real>, lambda: Option<real>)

  const NoOverrides := RateOverrides(None, None, None, None, None, None, None, None, None, None, None)

  /** Python truthiness of an optional number: `None` and `0` are false. */
  predicate Truthy(x: Option<real>): (t: bool)
    ensures !t <==> x == None || x == Some(0.0)
  {
    x.Some? && x.value != 0.0
  }

  /** The update rule of one stored number: a truthy argument replaces it. */
  function Merge(arg: Option<real>, stored: real): real
  {
    if Truthy(arg) then arg.value else stored
  }

  /** The update rule of one stored optional number; also the rule for combining two arguments. */
  function MergeOptional(arg: Option<real>, stored: Option<real>): Option<real>
  {
    if Truthy(arg) then arg else stored
  }

  /** A whole parameter update: every field takes its argument when that argument is truthy. */
  function MergeRates(p: RateVector, o: RateOverrides): (r: RateVector)
    ensures Truthy(o.v) ==> r.v == o.v.value
    ensures !Truthy(o.v) ==> r.v == p.v
    ensures Truthy(o.mu) ==> r.mu == o.mu.value
    ensures !Truthy(o.mu) ==> r.mu == p.mu
    ensures Truthy(o.gamma) ==> r.gamma == o.gamma.value
    ensures !Truthy(o.gamma) ==> r.gamma == p.gamma
    ensures Truthy(o.kappa) ==> r.kappa == o.kappa.value
    ensures !Truthy(o.kappa) ==> r.kappa == p.kappa
    ensures Truthy(o.omegaS) ==> r.omegaS == o.omegaS.value
    ensures !Truthy(o.omegaS) ==> r.omegaS == p.omegaS
    ensures Truthy(o.omegaI) ==> r.omegaI == o.omegaI.value
    ensures !Truthy(o.omegaI) ==> r.omegaI == p.omegaI
    ensures Truthy(o.omegaE) ==> r.omegaE == o.omegaE.value
    ensures !Truthy(o.omegaE) ==> r.omegaE == p.omegaE
    ensures Truthy(o.q) ==> r.q == o.q.value
    ensures !Truthy(o.q) ==> r.q == p.q
    ensures Truthy(o.delta) ==> r.delta == o.delta.value
    ensures !Truthy(o.delta) ==> r.delta == p.delta
    ensures Truthy(o.beta) ==> r.beta == o.beta
    ensures !Truthy(o.beta) ==> r.beta == p.beta
    ensures Truthy(o.lambda) ==> r.lambda == o.lambda
    ensures !Truthy(o.lambda) ==> r.lambda == p.lambda
  {
    RateVector(Merge(o.v, p.v), Merge(o.mu, p.mu), Merge(o.gamma, p.gamma), Merge(o.kappa, p.kappa),
               Merge(o.omegaS, p.omegaS), Merge(o.omegaI, p.omegaI), Merge(o.omegaE, p.omegaE),
               Merge(o.q, p.q), Merge(o.delta, p.delta),
               MergeOptional(o.beta, p.beta), MergeOptional(o.lambda, p.lambda))
  }

  /** An update whose every argument is `None` or zero changes nothing: zero cannot reset a rate. */
  lemma FalsyUpdateChangesNothing(p: RateVector, o: RateOverrides)
    requires !Truthy(o.v) && !Truthy(o.mu) && !Truthy(o.gamma) && !Truthy(o.kappa) && !Truthy(o.omegaS)
             && !Truthy(o.omegaI) && !Truthy(o.omegaE) && !Truthy(o.q) && !Truthy(o.delta)
             && !Truthy(o.beta) && !Truthy(o.lambda)
    ensures MergeRates(p, o) == p
  {
  }

  /** Applying the same update twice is the same as applying it once. */
  lemma MergeIdempotent(p: RateVector, o: RateOverrides)
    ensures MergeRates(MergeRates(p, o), o) == MergeRates(p, o)
  {
  }

  /** Once β is defined, no update can make it undefined again. */
  lemma MergeKeepsBetaDefined(p: RateVector, o: RateOverrides)
    requires p.beta.Some?
    ensures MergeRates(p, o).beta.Some?
    ensures MergeRates(p, o).beta.value != 0.0 || MergeRates(p, o).beta == p.beta
  {
  }

  /** Two updates in a row, folded into one: fieldwise, the later truthy argument wins. */
  function Then(a: RateOverrides, b: RateOverrides): RateOverrides
  {
    RateOverrides(MergeOptional(b.v, a.v), MergeOptional(b.mu, a.mu), MergeOptional(b.gamma, a.gamma),
                  MergeOptional(b.kappa, a.kappa), MergeOptional(b.omegaS, a.omegaS),
                  MergeOptional(b.omegaI, a.omegaI), MergeOptional(b.omegaE, a.omegaE),
                  MergeOptional(b.q, a.q), MergeOptional(b.delta, a.delta),
                  MergeOptional(b.beta, a.beta), MergeOptional(b.lambda, a.lambda))
  }

  lemma MergeTwice(p: RateVector, a: RateOverrides, b: RateOverrides)
    ensures MergeRates(MergeRates(p, a), b) == MergeRates(p, Then(a, b))
  {
  }

  /** Updates applied one after the other, first to last. */
  function MergeAll(p: RateVector, os: seq<RateOverrides>): RateVector
    decreases |os|
  {
    if os == [] then p else MergeRates(MergeAll(p, os[..|os| - 1]), os[|os| - 1])
  }

  /** A sequence of updates folded into one. */
  function Combined(os: seq<RateOverrides>): RateOverrides
    decreases |os|
  {
    if os == [] then NoOverrides else Then(Combined(os[..|os| - 1]), os[|os| - 1])
  }

  /**
   * Any sequence of updates acts as a single update that holds, per field, the last truthy
   * argument given: the order of the updates matters only through which one came last.
   */
  lemma {:induction false} MergeAllIsOneMerge(p: RateVector, os: seq<RateOverrides>)
    ensures MergeAll(p, os) == MergeRates(p, Combined(os))
    decreases |os|
  {
    if os == [] {
      FalsyUpdateChangesNothing(p, NoOverrides);
    } else {
      var init, last := os[..|os| - 1], os[|os| - 1];
      MergeAllIsOneMerge(p, init);
      MergeTwice(p, Combined(init), last);
    }
  }

  /** The rate parameters of one simulated population; every field can be overwritten. */
  class EpidemicParameters {
    var v: real
    var mu: real
    var gamma: real
    var kappa: real
    var omegaS: real
    var omegaI: real
    var omegaE: real
    var q: real
    var delta: real
    var beta: Option<real>
    var lambda: Option<real>

    function Value(): RateVector
      reads this
    {
      RateVector(v, mu, gamma, kappa, omegaS, omegaI, omegaE, q, delta, beta, lambda)
    }

    /** Every rate defaults to 0, except β and λ, which default to undefined. */
    constructor(v: real := 0.0, mu: real := 0.0, gamma: real := 0.0, kappa: real := 0.0, omegaS: real := 0.0,
                omegaI: real := 0.0, omegaE: real := 0.0, q: real := 0.0, delta: real := 0.0,
                beta: Option<real> := None, lambda: Option<real> := None)
      ensures Value() == RateVector(v, mu, gamma, kappa, omegaS, omegaI, omegaE, q, delta, beta, lambda)
    {
      this.v, this.mu, this.gamma, this.kappa := v, mu, gamma, kappa;
      this.omegaS, this.omegaI, this.omegaE := omegaS, omegaI, omegaE;
      this.q, this.delta, this.beta, this.lambda := q, delta, beta, lambda;
    }

    /** A deep copy: a new object holding the same values. */
    constructor Copy(other: EpidemicParameters)
      ensures Value() == other.Value()
    {
      v, mu, gamma, kappa := other.v, other.mu, other.gamma, other.kappa;
      omegaS, omegaI, omegaE := other.omegaS, other.omegaI, other.omegaE;
      q, delta, beta, lambda := other.q, other.delta, other.beta, other.lambda;
    }

    /** Overwrites each parameter whose argument is truthy and keeps the others. */
    method SetParameters(v: Option<real> := None, mu: Option<real> := None, gamma: Option<real> := None,
                         kappa: Option<real> := None, omegaS: Option<real> := None, omegaI: Option<real> := None,
                         omegaE: Option<real> := None, q: Option<real> := None, delta: Option<real> := None,
                         beta: Option<real> := None, lambda: Option<real> := None)
      modifies this
      ensures Value() == MergeRates(old(Value()),
                                    RateOverrides(v, mu, gamma, kappa, omegaS, omegaI, omegaE, q, delta, beta, lambda))
    {
      this.v, this.mu, this.gamma, this.kappa := Merge(v, this.v), Merge(mu, this.mu), Merge(gamma, this.gamma),
                                                  Merge(kappa, this.kappa);
      this.omegaS, this.omegaI, this.omegaE := Merge(omegaS, this.omegaS), Merge(omegaI, this.omegaI),
                                               Merge(omegaE, this.omegaE);
      this.q, this.delta := Merge(q, this.q), Merge(delta, this.delta);
      this.beta, this.lambda := MergeOptional(beta, this.beta), MergeOptional(lambda, this.lambda);
    }

    /** The same update, with the arguments taken from an event rule. */
    method SetParametersFromEvent(event: EpidemicEvent)
      modifies this
      ensures Value() == MergeRates(old(Value()), event.overrides)
    {
      var o := event.overrides;
      SetParameters(o.v, o.mu, o.gamma, o.kappa, o.omegaS, o.omegaI, o.omegaE, o.q, o.delta, o.beta, o.lambda);
    }
  }

  // ----- event rules -----

  /** The outcome of evaluating a rule's condition; an evaluation that raises is `Unevaluable`. */
  datatype Verdict = Holds | DoesNotHold | Unevaluable

  /** What a condition or a callback can look at: the time and the population's state. */
  datatype Snapshot = Snapshot(now: real, groups: SimEpidemic.Groups, n: real, rates: RateVector)

  /** The description of a rule that a callback asks the population to subscribe. */
  datatype EventSpec = EventSpec(name: string, condition: Snapshot -> Verdict, keepAlive: bool,
                                 overrides: RateOverrides, callback: Option<Snapshot -> seq<EventSpec>>)

  /**
   * A named rule: when its condition holds it applies its parameter overrides, runs its
   * callback, and stays subscribed only if it was created with `keepAlive`.
   */
  class EpidemicEvent {
    const name: string
    const condition: Snapshot -> Verdict
    const keepAlive: bool
    const overrides: RateOverrides
    const callback: Option<Snapshot -> seq<EventSpec>>
    var alive: bool
    /** How many times the rule has been executed. */
    ghost var executions: nat

    constructor(name: string, condition: Snapshot -> Verdict, keepAlive: bool := false,
                overrides: RateOverrides := NoOverrides, callback: Option<Snapshot -> seq<EventSpec>> := None)
      ensures this.name == name && this.condition == condition && this.keepAlive == keepAlive
      ensures this.overrides == overrides && this.callback == callback
      ensures alive && executions == 0
    {
      this.name, this.condition, this.keepAlive := name, condition, keepAlive;
      this.overrides, this.callback := overrides, callback;
      alive, executions := true, 0;
    }

    /** The condition as the population sees it: a condition that cannot be evaluated is false. */
    predicate CheckCondition(snapshot: Snapshot): (fires: bool)
      ensures fires ==> condition(snapshot) == Holds
      ensures condition(snapshot) == Unevaluable ==> !fires
    {
      condition(snapshot) == Holds
    }

    /**
     * Applies the overrides to the population's parameters, lets the callback subscribe new
     * rules (it sees the updated parameters), then sets `alive` to `keepAlive`.
     */
    method Execute(population: Population, now: real)
      modifies this, population`events, population.params
      ensures population.params.Value() == MergeRates(old(population.params.Value()), overrides)
      ensures alive == keepAlive && executions == old(executions) + 1
      ensures old(population.events) <= population.events
      ensures forall k :: |old(population.events)| <= k < |population.events| ==>
                fresh(population.events[k]) && population.events[k].alive && population.events[k].executions == 0
      ensures callback.None? ==> population.events == old(population.events)
      ensures callback.Some? ==>
                var specs := callback.value(Snapshot(now, population.classes, population.nClass, population.params.Value()));
                |population.events| == |old(population.events)| + |specs|
                && forall k :: 0 <= k < |specs| ==> Describes(population.events[|old(population.events)| + k], specs[k])
    {
      population.params.SetParametersFromEvent(this);
      if callback.Some? {
        population.SubscribeNew(callback.value(population.Observe(now)));
      }
      alive := keepAlive;
      executions := executions + 1;
    }
  }

  /** The rule `e` was created from the description `spec`. */
  ghost predicate Describes(e: EpidemicEvent, spec: EventSpec)
  {
    e.name == spec.name && e.condition == spec.condition && e.keepAlive == spec.keepAlive
    && e.overrides == spec.overrides && e.callback == spec.callback
  }

  /**
   * `after` is `before` followed by one newly created rule per description in `specs`, in
   * order, each described by its description.
   */
  ghost predicate AppendsDescribed(after: seq<EpidemicEvent>, before: seq<EpidemicEvent>, specs: seq<EventSpec>)
  {
    before <= after && |after| == |before| + |specs|
    && forall k :: 0 <= k < |specs| ==> Describes(after[|before| + k], specs[k])
  }

  /** Two rounds of appending described rules are one round with both lists of descriptions. */
  lemma AppendsDescribedChain(a: seq<EpidemicEvent>, b: seq<EpidemicEvent>, c: seq<EpidemicEvent>,
                              first: seq<EventSpec>, second: seq<EventSpec>)
    requires AppendsDescribed(b, a, first) && AppendsDescribed(c, b, second)
    ensures AppendsDescribed(c, a, first + second)
  {
    forall k | 0 <= k < |first + second|
      ensures Describes(c[|a| + k], (first + second)[k])
    {
      if k < |first| {
        assert c[|a| + k] == b[|a| + k];
      } else {
        assert c[|a| + k] == c[|b| + (k - |first|)];
      }
    }
  }

  /**
   * The descriptions the callbacks of `due` return when the rules are executed one after the
   * other from the rates `start`: the callback of the j-th rule sees the time, the classes and
   * the rates once the overrides of the first j+1 rules are merged in. A rule without a
   * callback contributes nothing.
   */
  function AppendedBy(due: seq<EpidemicEvent>, start: RateVector, now: real, groups: SimEpidemic.Groups,
                      n: real): seq<EventSpec>
    decreases |due|
  {
    if due == [] then []
    else
      var last := due[|due| - 1];
      AppendedBy(due[..|due| - 1], start, now, groups, n)
      + if last.callback.Some? then last.callback.value(Snapshot(now, groups, n, MergeAll(start, OverridesOf(due))))
        else []
  }

  /** The rules still subscribed: the dead ones are dropped, the order of the rest is kept. */
  function Purge(es: seq<EpidemicEvent>): (live: seq<EpidemicEvent>)
    reads es
    ensures |live| <= |es|
    ensures forall e :: e in live ==> e in es && e.alive
    ensures forall e {:trigger multiset(live)[e]} :: e in es ==> multiset(live)[e] == if e.alive then multiset(es)[e] else 0
    decreases |es|
  {
    if es == [] then []
    else
      var last := es[|es| - 1];
      assert es == es[..|es| - 1] + [last];
      Purge(es[..|es| - 1]) + if last.alive then [last] else []
  }

  /** The rules whose condition holds in the snapshot, in list order. */
  function Fired(es: seq<EpidemicEvent>, snapshot: Snapshot): (due: seq<EpidemicEvent>)
    ensures |due| <= |es|
    ensures forall e :: e in due ==> e in es && e.CheckCondition(snapshot)
    ensures forall e {:trigger multiset(due)[e]} :: e in es ==>
              multiset(due)[e] == if e.CheckCondition(snapshot) then multiset(es)[e] else 0
    decreases |es|
  {
    if es == [] then []
    else
      var last := es[|es| - 1];
      assert es == es[..|es| - 1] + [last];
      Fired(es[..|es| - 1], snapshot) + if last.CheckCondition(snapshot) then [last] else []
  }

  /** Concatenation is associative. */
  lemma ConcatAssociative<T>(x: seq<T>, y: seq<T>, z: seq<T>)
    ensures (x + y) + z == x + (y + z)
  {
  }

  /** A single rule is kept exactly when it is alive. */
  lemma PurgeSingle(e: EpidemicEvent)
    ensures Purge([e]) == if e.alive then [e] else []
  {
    assert [e][..0] == [];
  }

  /** Purging keeps the order: the survivors of a concatenation are those of each part, in turn. */
  lemma {:induction false} PurgeAppend(a: seq<EpidemicEvent>, b: seq<EpidemicEvent>)
    ensures Purge(a + b) == Purge(a) + Purge(b)
    decreases |b|
  {
    if b == [] {
      assert a + b == a;
    } else {
      var init, last := b[..|b| - 1], b[|b| - 1];
      var tail := if last.alive then [last] else [];
      assert (a + b)[..|a + b| - 1] == a + init;
      PurgeAppend(a, init);
      calc {
        Purge(a + b);
        Purge(a + init) + tail;
        (Purge(a) + Purge(init)) + tail;
        { ConcatAssociative(Purge(a), Purge(init), tail); }
        Purge(a) + (Purge(init) + tail);
        Purge(a) + Purge(b);
      }
    }
  }

  /** A single rule is due exactly when its condition holds. */
  lemma FiredSingle(e: EpidemicEvent, snapshot: Snapshot)
    ensures Fired([e], snapshot) == if e.CheckCondition(snapshot) then [e] else []
  {
    assert [e][..0] == [];
  }

  /** Selecting the due rules keeps the order: those of a concatenation are those of each part, in turn. */
  lemma {:induction false} FiredAppend(a: seq<EpidemicEvent>, b: seq<EpidemicEvent>, snapshot: Snapshot)
    ensures Fired(a + b, snapshot) == Fired(a, snapshot) + Fired(b, snapshot)
    decreases |b|
  {
    if b == [] {
      assert a + b == a;
    } else {
      var init, last := b[..|b| - 1], b[|b| - 1];
      var tail := if last.CheckCondition(snapshot) then [last] else [];
      assert (a + b)[..|a + b| - 1] == a + init;
      FiredAppend(a, init, snapshot);
      calc {
        Fired(a + b, snapshot);
        Fired(a + init, snapshot) + tail;
        (Fired(a, snapshot) + Fired(init, snapshot)) + tail;
        { ConcatAssociative(Fired(a, snapshot), Fired(init, snapshot), tail); }
        Fired(a, snapshot) + (Fired(init, snapshot) + tail);
        Fired(a, snapshot) + Fired(b, snapshot);
      }
    }
  }

  /** The overrides of a list of rules, in list order. */
  function OverridesOf(es: seq<EpidemicEvent>): (os: seq<RateOverrides>)
    ensures |os| == |es| && forall j :: 0 <= j < |es| ==> os[j] == es[j].overrides
  {
    seq(|es|, j requires 0 <= j < |es| => es[j].overrides)
  }

  /** A rule that is dead when a pass starts is not executed in that pass. */
  lemma DeadRuleDoesNotFire(es: seq<EpidemicEvent>, snapshot: Snapshot, e: EpidemicEvent)
    requires !e.alive
    ensures e !in Fired(Purge(es), snapshot)
  {
  }

  /** Within one pass a rule is executed at most as often as it is subscribed, and only if alive. */
  lemma PassExecutesSubscribedRulesOnce(es: seq<EpidemicEvent>, snapshot: Snapshot, e: EpidemicEvent)
    requires multiset(es)[e] <= 1
    ensures multiset(Fired(Purge(es), snapshot))[e] <= 1
    ensures multiset(Fired(Purge(es), snapshot))[e] == 1 <==> e in es && e.alive && e.CheckCondition(snapshot)
  {
    var live: seq<EpidemicEvent> := Purge(es);
    var due: seq<EpidemicEvent> := Fired(live, snapshot);
    if e in live {
      assert multiset(due)[e] == if e.CheckCondition(snapshot) then multiset(live)[e] else 0;
      assert multiset(live)[e] == multiset(es)[e];
    } else {
      assert e !in due;
      if e in es {
        assert multiset(live)[e] == if e.alive then multiset(es)[e] else 0;
      }
    }
  }

  // ----- the population -----

  /** The argument `subscribe_event` accepts: nothing, one rule, or a list whose items may not be rules. */
  datatype EventItem = Event(event: EpidemicEvent) | NotAnEvent
  datatype EventArg = NoEvents | OneEvent(event: EpidemicEvent) | EventList(items: seq<EventItem>)

  function ItemsOf(arg: EventArg): seq<EventItem>
  {
    match arg
    case NoEvents => []
    case OneEvent(e) => [Event(e)]
    case EventList(items) => items
  }

  /** The rules among the items, in order; anything else is skipped. */
  function AcceptedItems(items: seq<EventItem>): (accepted: seq<EpidemicEvent>)
    ensures |accepted| <= |items|
    ensures forall e :: e in accepted ==> Event(e) in items
    ensures forall j :: 0 <= j < |items| && items[j].Event? ==> items[j].event in accepted
    decreases |items|
  {
    if items == [] then []
    else
      var last := items[|items| - 1];
      assert items == items[..|items| - 1] + [last];
      AcceptedItems(items[..|items| - 1]) + match last { case Event(e) => [e] case NotAnEvent => [] }
  }

  /** A single item contributes its rule, or nothing when it is not a rule. */
  lemma AcceptedSingle(item: EventItem)
    ensures AcceptedItems([item]) == if item.Event? then [item.event] else []
  {
    assert [item][..0] == [];
  }

  /** Accepting keeps the order: the rules of a concatenation are those of each part, in turn. */
  lemma {:induction false} AcceptedItemsAppend(a: seq<EventItem>, b: seq<EventItem>)
    ensures AcceptedItems(a + b) == AcceptedItems(a) + AcceptedItems(b)
    decreases |b|
  {
    if b == [] {
      assert a + b == a;
    } else {
      var init := b[..|b| - 1];
      var last := b[|b| - 1];
      assert (a + b)[..|a + b| - 1] == a + init;
      assert (a + b)[|a + b| - 1] == last;
      assert b[..|b| - 1] == init;
      AcceptedItemsAppend(a, init);
    }
  }

  /** The exception construction raises: a missing total (`None < 0`) or a missing S without a total. */
  datatype SetupError = TypeError

  /**
   * The initial class sizes. Given a non-zero total N, S is N minus the other living classes;
   * given a zero total, S is taken as passed. A missing total, or a zero total without S,
   * raises.
   */
  function InitialClasses(nCap: Option<real>, sCap: Option<real>, iCap: real, dnCap: real, diCap: real,
                          rCap: real, xsCap: real, xiCap: real): (res: Result<SimEpidemic.Groups, SetupError>)
    ensures res.Failure? <==> nCap.None? || (nCap.value == 0.0 && sCap.None?)
    ensures res.Success? && nCap.value != 0.0 ==> res.value.Living() == nCap.value
    ensures res.Success? && nCap.value == 0.0 ==> res.value.s == sCap.value
    ensures res.Success? ==> res.value.i == iCap && res.value.r == rCap && res.value.xs == xsCap
                             && res.value.xi == xiCap && res.value.dn == dnCap && res.value.di == diCap
  {
    if nCap.None? then Failure(TypeError)
    else if nCap.value != 0.0 then
      Success(SimEpidemic.Groups(nCap.value - (iCap + rCap + xsCap + xiCap), iCap, rCap, xsCap, xiCap, dnCap, diCap))
    else if sCap.None? then Failure(TypeError)
    else Success(SimEpidemic.Groups(sCap.value, iCap, rCap, xsCap, xiCap, dnCap, diCap))
  }

  /**
   * One step of a population: the SIRXD step with the quarantine rates ωs, ωi, ωe as κs, κi,
   * κe and dt = STEP. An undefined β raises before anything is divided.
   */
  function PopulationStep(g: SimEpidemic.Groups, p: RateVector): (res: Result<SimEpidemic.StepResult, SimEpidemic.StepError>)
    ensures res.Failure? <==> p.beta.None? || g.Living() == 0.0
    ensures p.beta.None? ==> res == Failure(SimEpidemic.UndefinedRate)
    ensures p.beta.Some? ==>
              res == SimEpidemic.UpdateGroups(g, SimEpidemic.Rates(p.beta.value, p.gamma, p.delta, p.omegaS, p.omegaI,
                                                                   p.omegaE, p.v, p.mu), STEP)
    ensures res.Success? ==> res.value.groups.NonNegative() && res.value.n == res.value.groups.Living()
  {
    if p.beta.None? then Failure(SimEpidemic.UndefinedRate)
    else SimEpidemic.UpdatePopulation(g.s, g.i, g.r, g.xs, g.xi, g.dn, g.di,
                                      p.beta.value, p.gamma, p.delta, p.omegaS, p.omegaI, p.omegaE,
                                      p.v, p.mu, STEP)
  }

  /** How a tick or a run ended: still running, the susceptibles died out, or the step raised. */
  datatype RunStatus = Running | Extinct | Crashed(error: SimEpidemic.StepError)

  /**
   * A population divided into the SIRXD classes, with the history of every class. The seven
   * class sizes are held together in `classes`, the eight recorded lists in `data`.
   */
  class Population {
    const name: string
    const params: EpidemicParameters
    var events: seq<EpidemicEvent>
    var classes: SimEpidemic.Groups
    var nClass: real
    var data: SimEpidemic.Series

    /** What conditions and callbacks see at time `now`. */
    function Observe(now: real): (snapshot: Snapshot)
      reads this, params
      ensures snapshot.now == now && snapshot.groups == classes && snapshot.n == nClass
      ensures snapshot.rates == params.Value()
    {
      Snapshot(now, classes, nClass, params.Value())
    }

    /** Every series has the same, non-zero length and ends with the current class sizes. */
    ghost predicate Valid()
      reads this
    {
      data.Aligned() && data.Last() == SimEpidemic.StepResult(classes, nClass)
    }

    /**
     * A rule created without `keepAlive` that has been executed is dead: the next pass drops
     * it, so it is never executed again.
     */
    ghost predicate SpentRulesDead()
      reads this, events
    {
      forall e :: e in events && !e.keepAlive && e.executions > 0 ==> !e.alive
    }

    /**
     * Sets up the classes from the caps, copies the given parameters (or takes the defaults),
     * subscribes the given rules and starts every series with its initial value.
     */
    constructor(name: string, nClassCap: Option<real>, sClassCap: Option<real> := None, iClassCap: real := 1.0,
                dnClassCap: real := 0.0, diClassCap: real := 0.0, rClassCap: real := 0.0,
                xsClassCap: real := 0.0, xiClassCap: real := 0.0,
                epidemicParams: Option<EpidemicParameters> := None, events: EventArg := NoEvents)
      requires InitialClasses(nClassCap, sClassCap, iClassCap, dnClassCap, diClassCap,
                              rClassCap, xsClassCap, xiClassCap).Success?
      ensures Valid()
      ensures classes == InitialClasses(nClassCap, sClassCap, iClassCap, dnClassCap, diClassCap,
                                        rClassCap, xsClassCap, xiClassCap).value
      ensures nClass == classes.Living()
      ensures data == SimEpidemic.Series([classes.s], [classes.i], [classes.r], [classes.xs], [classes.xi],
                                         [classes.dn], [classes.di], [nClass])
      ensures fresh(params)
      ensures params.Value() == if epidemicParams.Some? then epidemicParams.value.Value() else DefaultRates
      ensures this.events == AcceptedItems(ItemsOf(events))
    {
      var g := InitialClasses(nClassCap, sClassCap, iClassCap, dnClassCap, diClassCap,
                              rClassCap, xsClassCap, xiClassCap).value;
      this.name := name;
      if epidemicParams.Some? {
        params := new EpidemicParameters.Copy(epidemicParams.value);
      } else {
        params := new EpidemicParameters();
      }
      this.events := [];
      classes := g;
      nClass := g.s + g.i + g.r + g.xs + g.xi;
      data := SimEpidemic.Series([g.s], [g.i], [g.r], [g.xs], [g.xi], [g.dn], [g.di], [nClass]);
      new;
      SubscribeEvent(events);
    }

    /** Appends the rules of the argument, in order, to the subscribed rules; skips anything else. */
    method SubscribeEvent(arg: EventArg)
      modifies this`events
      ensures events == old(events) + AcceptedItems(ItemsOf(arg))
    {
      var items := ItemsOf(arg);
      for j := 0 to |items|
        invariant events == old(events) + AcceptedItems(items[..j])
      {
        assert items[..j + 1][..j] == items[..j];
        match items[j]
        case Event(e) =>
          events := events + [e];
        case NotAnEvent =>
      }
      assert items[..|items|] == items;
    }

    /** Creates a rule for each description and subscribes it. */
    method SubscribeNew(specs: seq<EventSpec>)
      modifies this`events
      ensures |events| == |old(events)| + |specs| && old(events) <= events
      ensures forall k :: |old(events)| <= k < |events| ==> fresh(events[k]) && events[k].alive && events[k].executions == 0
      ensures forall k :: 0 <= k < |specs| ==> Describes(events[|old(events)| + k], specs[k])
    {
      for j := 0 to |specs|
        invariant |events| == |old(events)| + j
        invariant events[..|old(events)|] == old(events)
        invariant forall k :: |old(events)| <= k < |events| ==> fresh(events[k]) && events[k].alive && events[k].executions == 0
        invariant forall k :: 0 <= k < j ==> Describes(events[|old(events)| + k], specs[k])
      {
        var spec := specs[j];
        var e := new EpidemicEvent(spec.name, spec.condition, spec.keepAlive, spec.overrides, spec.callback);
        events := events + [e];
      }
    }

    /**
     * Executes the given rules one after the other, in list order; a rule listed twice is
     * executed twice.
     */
    method ExecuteInOrder(due: seq<EpidemicEvent>, now: real)
      modifies this`events, params, set e | e in due
      ensures params.Value() == MergeAll(old(params.Value()), OverridesOf(due))
      ensures forall e :: e in due ==> e.alive == e.keepAlive
      ensures forall e :: e in due ==> e.executions == old(e.executions) + multiset(due)[e]
      ensures AppendsDescribed(events, old(events), AppendedBy(due, old(params.Value()), now, classes, nClass))
      ensures forall k :: |old(events)| <= k < |events| ==> fresh(events[k]) && events[k].alive && events[k].executions == 0
    {
      ghost var counts := map e | e in due :: e.executions;
      for j := 0 to |due|
        invariant params.Value() == MergeAll(old(params.Value()), OverridesOf(due[..j]))
        invariant forall e :: e in due[..j] ==> e.alive == e.keepAlive
        invariant forall e :: e in due ==> e in counts && e.executions == counts[e] + multiset(due[..j])[e]
        invariant AppendsDescribed(events, old(events), AppendedBy(due[..j], old(params.Value()), now, classes, nClass))
        invariant forall k :: |old(events)| <= k < |events| ==>
                    events[k] !in due && events[k].alive && events[k].executions == 0
        invariant forall k :: |old(events)| <= k < |events| ==> fresh(events[k])
      {
        ghost var mid := events;
        ExecuteNext(due, j, now, old(params.Value()), old(events), counts);
        assert events[..|mid|] == mid;
      }
      assert due[..|due|] == due;
    }

    /**
     * Executes `due[j]`, the next rule of an in-order execution that started from the rates
     * `start` with the rules `before` subscribed and the execution counts `counts`.
     */
    method ExecuteNext(due: seq<EpidemicEvent>, j: nat, now: real, ghost start: RateVector,
                       ghost before: seq<EpidemicEvent>, ghost counts: map<EpidemicEvent, nat>)
      requires j < |due|
      requires params.Value() == MergeAll(start, OverridesOf(due[..j]))
      requires forall e :: e in due[..j] ==> e.alive == e.keepAlive
      requires forall e :: e in due ==> e in counts && e.executions == counts[e] + multiset(due[..j])[e]
      requires AppendsDescribed(events, before, AppendedBy(due[..j], start, now, classes, nClass))
      requires forall k :: |before| <= k < |events| ==> events[k] !in due && events[k].alive && events[k].executions == 0
      modifies this`events, params, due[j]
      ensures params.Value() == MergeAll(start, OverridesOf(due[..j + 1]))
      ensures forall e :: e in due[..j + 1] ==> e.alive == e.keepAlive
      ensures forall e :: e in due ==> e in counts && e.executions == counts[e] + multiset(due[..j + 1])[e]
      ensures AppendsDescribed(events, before, AppendedBy(due[..j + 1], start, now, classes, nClass))
      ensures forall k :: |before| <= k < |events| ==> events[k] !in due && events[k].alive && events[k].executions == 0
      ensures old(events) <= events
      ensures forall k :: |old(events)| <= k < |events| ==> fresh(events[k])
    {
      var e := due[j];
      assert due[..j + 1] == due[..j] + [e];
      assert due[..j + 1][..j] == due[..j];
      assert OverridesOf(due[..j + 1]) == OverridesOf(due[..j]) + [e.overrides];
      ghost var mid := events;
      e.Execute(this, now);
      ghost var specs := if e.callback.Some? then e.callback.value(Observe(now)) else [];
      assert AppendsDescribed(events, mid, specs);
      AppendsDescribedChain(before, mid, events, AppendedBy(due[..j], start, now, classes, nClass), specs);
    }

    /**
     * One pass over the rules: drop the dead ones, evaluate every condition against the
     * state before the pass, then execute the due rules in list order. Rules a callback
     * subscribes during the pass are appended and not executed in it.
     */
    method ExecuteEvents(now: real)
      modifies this`events, params, set e | e in events
      ensures var due := Fired(old(Purge(events)), old(Observe(now)));
              params.Value() == MergeAll(old(params.Value()), OverridesOf(due))
              && (forall e :: e in old(events) ==> e.alive == if e in due then e.keepAlive else old(e.alive))
              && (forall e :: e in old(events) ==> e.executions == old(e.executions) + multiset(due)[e])
      ensures AppendsDescribed(events, old(Purge(events)),
                               AppendedBy(Fired(old(Purge(events)), old(Observe(now))), old(params.Value()), now,
                                          classes, nClass))
      ensures forall k :: |old(Purge(events))| <= k < |events| ==> fresh(events[k]) && events[k].alive && events[k].executions == 0
      ensures forall e :: e in events ==> e in old(events) || fresh(e)
      ensures forall e :: e in old(events) && !old(e.alive) ==> !e.alive && e.executions == old(e.executions)
      ensures old(SpentRulesDead()) ==> SpentRulesDead()
    {
      ghost var snapshot := Observe(now);
      events := Purge(events);
      assert Observe(now) == snapshot;
      ExecuteSelected(now, old(events));
    }

    /**
     * The second half of a pass, once the dead rules of `all` are dropped: evaluate every
     * condition against the current state, then execute the due rules in list order.
     */
    method ExecuteSelected(now: real, ghost all: seq<EpidemicEvent>)
      requires events == Purge(all)
      modifies this`events, params, set e | e in events
      ensures var due := Fired(old(events), old(Observe(now)));
              params.Value() == MergeAll(old(params.Value()), OverridesOf(due))
              && (forall e :: e in all ==> e.alive == if e in due then e.keepAlive else old(e.alive))
              && (forall e :: e in all ==> e.executions == old(e.executions) + multiset(due)[e])
              && AppendsDescribed(events, old(events), AppendedBy(due, old(params.Value()), now, classes, nClass))
      ensures forall k :: |old(events)| <= k < |events| ==> fresh(events[k]) && events[k].alive && events[k].executions == 0
      ensures forall e :: e in events ==> e in all || fresh(e)
      ensures forall e :: e in all && !old(e.alive) ==> !e.alive && e.executions == old(e.executions)
      ensures old(forall e :: e in all && !e.keepAlive && e.executions > 0 ==> !e.alive) ==> SpentRulesDead()
    {
      var current: seq<EpidemicEvent> := Fired(events, Observe(now));
      ExecuteInOrder(current, now);
      forall e: EpidemicEvent | e in all
        ensures e.alive == if e in current then e.keepAlive else old(e.alive)
        ensures e.executions == old(e.executions) + multiset(current)[e]
      {
        if e !in current {
          assert multiset(current)[e] == 0;
        }
      }
      forall e | e in events
        ensures e in old(events) || (fresh(e) && e.alive && e.executions == 0)
      {
        var k :| 0 <= k < |events| && events[k] == e;
        if k < |old(events)| {
          assert e == old(events)[k];
        }
      }
    }

    /** Sets each class to its new size and appends that size to its series. */
    method Record(next: SimEpidemic.StepResult)
      requires Valid()
      modifies this
      ensures Valid()
      ensures classes == next.groups && nClass == next.n && data == old(data).Then(next)
      ensures events == old(events)
    {
      SimEpidemic.ThenRecords(data, next);
      classes, nClass, data := next.groups, next.n, data.Then(next);
    }

    /**
     * One tick of the run loop: execute the due rules, step the model with the current
     * parameters, and record the new sizes. The status says whether the susceptibles died out.
     */
    method Tick(now: real) returns (status: RunStatus)
      requires Valid() && SpentRulesDead()
      modifies this, params, set e | e in events
      ensures Valid() && SpentRulesDead()
      ensures params.Value() == MergeAll(old(params.Value()), OverridesOf(Fired(old(Purge(events)), old(Observe(now)))))
      ensures var due := Fired(old(Purge(events)), old(Observe(now)));
              (forall e :: e in old(events) ==> e.alive == if e in due then e.keepAlive else old(e.alive))
              && (forall e :: e in old(events) ==> e.executions == old(e.executions) + multiset(due)[e])
              && AppendsDescribed(events, old(Purge(events)),
                                  AppendedBy(due, old(params.Value()), now, old(classes), old(nClass)))
      ensures forall k :: |old(Purge(events))| <= k < |events| ==> fresh(events[k]) && events[k].alive && events[k].executions == 0
      ensures forall e :: e in events ==> e in old(events) || fresh(e)
      ensures forall e :: e in old(events) && old(e.executions) > 0 && !e.keepAlive ==> e.executions == old(e.executions)
      ensures var step := PopulationStep(old(classes), params.Value());
              (status.Crashed? <==> step.Failure?)
              && (step.Failure? ==> status.error == step.error && classes == old(classes)
                                    && nClass == old(nClass) && data == old(data))
              && (step.Success? ==> classes == step.value.groups && nClass == step.value.n
                                    && data == old(data).Then(step.value)
                                    && (status == Extinct <==> step.value.groups.s <= 0.0))
    {
      ExecuteEvents(now);
      status := StepAndRecord();
    }

    /**
     * Steps the model with the current parameters and records the new sizes; a step that
     * raises changes nothing. The status says whether the susceptibles died out.
     */
    method StepAndRecord() returns (status: RunStatus)
      requires Valid()
      modifies this
      ensures Valid() && events == old(events)
      ensures var step := PopulationStep(old(classes), params.Value());
              (status.Crashed? <==> step.Failure?)
              && (step.Failure? ==> status.error == step.error && classes == old(classes)
                                    && nClass == old(nClass) && data == old(data))
              && (step.Success? ==> classes == step.value.groups && nClass == step.value.n
                                    && data == old(data).Then(step.value)
                                    && (status == Extinct <==> step.value.groups.s <= 0.0))
    {
      var step := PopulationStep(classes, params.Value());
      if step.Failure? {
        return Crashed(step.error);
      }
      Record(step.value);
      status := if classes.s <= 0.0 then Extinct else Running;
    }

    /**
     * The run loop: ticks at times 0, STEP, 2·STEP, … until the horizon, stopping after the
     * first tick that leaves no susceptibles, or at the first step that raises. `rates` holds
     * one rate vector per completed tick, under which the model step produced that tick's
     * entry; that these are the parameters left by the tick's rule pass is stated per tick
     * by `Advance`.
     */
    method Run(horizon: nat := END) returns (status: RunStatus, ticks: nat, ghost rates: seq<RateVector>)
      requires Valid() && SpentRulesDead()
      modifies this, params, set e | e in events
      ensures Valid() && SpentRulesDead()
      ensures ticks <= horizon
      ensures data.Extends(old(data)) && |data.s| == |old(data.s)| + ticks
      ensures |rates| == ticks && RecordsSteps(data, |old(data.s)|, rates)
      ensures status == Running ==> ticks == horizon
      ensures status == Extinct ==> ticks >= 1 && classes.s <= 0.0
      ensures status.Crashed? ==> ticks < horizon && PopulationStep(classes, params.Value()) == Failure(status.error)
      ensures forall j :: |old(data.s)| <= j < |data.s| - 1 ==> data.s[j] > 0.0
      ensures status != Extinct ==> forall j :: |old(data.s)| <= j < |data.s| ==> data.s[j] > 0.0
      ensures forall e :: e in old(events) && old(e.executions) > 0 && !e.keepAlive ==> e.executions == old(e.executions)
    {
      ticks := 0;
      status := Running;
      rates := [];
      ghost var spent := map e | e in events && e.executions > 0 && !e.keepAlive :: e.executions;
      while ticks < horizon
        invariant Valid() && SpentRulesDead() && ticks <= horizon
        invariant data.Extends(old(data)) && |rates| == ticks && RecordsSteps(data, |old(data.s)|, rates)
        invariant forall j :: |old(data.s)| <= j < |data.s| ==> data.s[j] > 0.0
        invariant forall e :: e in events ==> e in old(events) || fresh(e)
        invariant forall e :: e in spent ==> e.executions == spent[e]
        decreases horizon - ticks
      {
        var st;
        st, rates := Advance(ticks as real * STEP, old(data), rates, spent);
        if st.Crashed? {
          return st, ticks, rates;
        }
        ticks := ticks + 1;
        if st == Extinct {
          return st, ticks, rates;
        }
      }
    }

    /**
     * One iteration of the run loop that started from the series `origin`: a tick, with the
     * rate vector it stepped with appended to `rates` when the step succeeds.
     */
    method Advance(now: real, ghost origin: SimEpidemic.Series, ghost rates: seq<RateVector>,
                   ghost spent: map<EpidemicEvent, nat>)
      returns (status: RunStatus, ghost next: seq<RateVector>)
      requires Valid() && SpentRulesDead()
      requires forall e :: e in spent ==> e.executions == spent[e] && spent[e] > 0 && !e.keepAlive
      requires data.Extends(origin) && RecordsSteps(data, |origin.s|, rates)
      requires forall j :: |origin.s| <= j < |data.s| ==> data.s[j] > 0.0
      modifies this, params, set e | e in events
      ensures Valid() && SpentRulesDead()
      ensures data.Extends(origin) && RecordsSteps(data, |origin.s|, next)
      ensures status.Crashed? ==> next == rates && data == old(data)
                                  && PopulationStep(classes, params.Value()) == Failure(status.error)
      ensures !status.Crashed? ==> next == rates + [params.Value()] && data.Extends(old(data))
                                   && |data.s| == |old(data.s)| + 1 && data.s[|data.s| - 1] == classes.s
                                   && (status == Extinct <==> classes.s <= 0.0)
      ensures forall j :: |origin.s| <= j < |data.s| - 1 ==> data.s[j] > 0.0
      ensures status != Extinct ==> forall j :: |origin.s| <= j < |data.s| ==> data.s[j] > 0.0
      ensures params.Value() == MergeAll(old(params.Value()), OverridesOf(Fired(old(Purge(events)), old(Observe(now)))))
      ensures forall e :: e in events ==> e in old(events) || fresh(e)
      ensures forall e :: e in spent ==> e.executions == spent[e]
    {
      ghost var before, prior := data, classes;
      status := Tick(now);
      next := rates;
      if !status.Crashed? {
        RecordsStepsThen(before, |origin.s|, rates, params.Value(), PopulationStep(prior, params.Value()).value);
        next := rates + [params.Value()];
        ExtendsTransitive(origin, before, data);
        assert data.s == before.s + [classes.s];
      }
    }
  }

  /** A series that extends one which extends a third extends that third one too. */
  lemma ExtendsTransitive(a: SimEpidemic.Series, b: SimEpidemic.Series, c: SimEpidemic.Series)
    requires b.Extends(a) && c.Extends(b)
    ensures c.Extends(a)
  {
  }

  /**
   * From position `base` on, `data` holds one state per rate vector in `rates`: each is the
   * population step, under that rate vector, of the state recorded just before it.
   */
  ghost predicate RecordsSteps(data: SimEpidemic.Series, base: nat, rates: seq<RateVector>)
  {
    data.Aligned() && 1 <= base && base + |rates| == |data.s|
    && forall j :: 0 <= j < |rates| ==> StepRecorded(data, base + j, rates[j])
  }

  /** Entry `j` of `data` is the population step, under the rates `p`, of the entry before it. */
  ghost predicate StepRecorded(data: SimEpidemic.Series, j: nat, p: RateVector)
  {
    data.Aligned() && 1 <= j < |data.s| && PopulationStep(data.At(j - 1).groups, p) == Success(data.At(j))
  }

  /** Recording the result of one more step extends the recorded steps by its rate vector. */
  lemma RecordsStepsThen(data: SimEpidemic.Series, base: nat, rates: seq<RateVector>, p: RateVector,
                         next: SimEpidemic.StepResult)
    requires RecordsSteps(data, base, rates)
    requires PopulationStep(data.Last().groups, p) == Success(next)
    ensures RecordsSteps(data.Then(next), base, rates + [p])
  {
    SimEpidemic.ThenRecords(data, next);
    var longer, more := data.Then(next), rates + [p];
    forall j | 0 <= j < |more|
      ensures StepRecorded(longer, base + j, more[j])
    {
      if j < |rates| {
        assert more[j] == rates[j];
        assert longer.At(base + j - 1) == data.At(base + j - 1) && longer.At(base + j) == data.At(base + j);
      } else {
        assert more[j] == p && base + j - 1 == |data.s| - 1;
      }
    }
  }

  /**
   * The rate that relates to `a` as `percentage` relates to the rest of 100: a share of 100
   * raises a division by zero.
   */
  function RateRelative(a: real, percentage: real): (r: Option<real>)
    ensures r.None? <==> percentage == 100.0
    ensures r.Some? ==> r.value * (100.0 - percentage) == a * percentage
  {
    if percentage == 100.0 then None
    else
      var rest := 100.0 - percentage;
      assert a / rest * percentage * rest == a * percentage;
      Some(a / rest * percentage)
  }

  /** The infection rate that yields a given basic reproduction number R0 = β/γ. */
  function SetBetaWithR0(r0: real, gamma: real): (beta: real)
    ensures gamma != 0.0 ==> beta / gamma == r0
    ensures gamma == 0.0 ==> beta == 0.0
  {
    r0 * gamma
  }
}

=== FILE: sim_epidemic.dfy ===
/**
 * The deterministic SIRXD compartment model: one explicit Euler step over seven
 * compartments, the tuple-spreading wrapper around it, and the driver loop that
 * records one series per compartment.
 */
module SimEpidemic {
  import opened Wrappers

  /** Sizes of the seven compartments S, I, R, Xs, Xi, Dn, Di. */
  datatype Groups = Groups(s: real, i: real, r: real, xs: real, xi: real, dn: real, di: real)
  {
    /** The living population N; the two death compartments are not part of it. */
    function Living(): real { s + i + r + xs + xi }

    /** Everyone ever counted, the dead included. */
    function Total(): real { Living() + dn + di }

    predicate NonNegative()
    {
      s >= 0.0 && i >= 0.0 && r >= 0.0 && xs >= 0.0 && xi >= 0.0 && dn >= 0.0 && di >= 0.0
    }

    /** Every compartment multiplied by `f`. */
    function Scale(f: real): Groups
    {
      Groups(s * f, i * f, r * f, xs * f, xi * f, dn * f, di * f)
    }

    /** Component-wise sum, used to add the deltas of a step. */
    function Plus(d: Groups): Groups
    {
      Groups(s + d.s, i + d.i, r + d.r, xs + d.xs, xi + d.xi, dn + d.dn, di + d.di)
    }
  }

  /** The rate tuple in the order the step takes it: β, γ, δ, κs, κi, κe, v, μ. */
  datatype Rates = Rates(beta: real, gamma: real, delta: real, ks: real, ki: real, ke: real, v: real, mu: real)
  {
    predicate NonNegative()
    {
      beta >= 0.0 && gamma >= 0.0 && delta >= 0.0 && ks >= 0.0 && ki >= 0.0 && ke >= 0.0 && v >= 0.0 && mu >= 0.0
    }
  }

  /** The exceptions a step can raise: division by a zero living total, or a rate that is `None`. */
  datatype StepError = ZeroDivision | UndefinedRate

  /** What a step returns: the seven new sizes and the new living total N. */
  datatype StepResult = StepResult(groups: Groups, n: real)

  /** The rates with every coefficient set to zero. */
  const NoRates := Rates(0.0, 0.0, 0.0, 0.0, 0.0, 0.0, 0.0, 0.0)

  /**
   * The seven flows of the model per unit of time, in compartment order: births v·N and
   * the infections β·S·I/N, recoveries, quarantine moves and deaths between compartments.
   */
  function Flows(g: Groups, k: Rates): Groups
    requires g.Living() != 0.0
  {
    var n := g.Living();
    var infections := k.beta * g.s * g.i / n;
    Groups(
      k.v * n + k.ke * g.xs - infections - k.ks * g.s - k.mu * g.s,
      infections - k.gamma * g.i - k.ks * g.i - k.ki * g.i - k.delta * g.i - k.mu * g.i,
      k.gamma * g.i + k.gamma * g.xi - k.mu * g.r,
      k.ks * g.s - k.ke * g.xs - k.mu * g.xs,
      k.ks * g.i + k.ki * g.i - k.gamma * g.xi - k.delta * g.xi - k.mu * g.xi,
      k.mu * g.s + k.mu * g.xs + k.mu * g.i + k.mu * g.xi + k.mu * g.r,
      k.delta * g.i + k.delta * g.xi)
  }

  /** The seven changes of one Euler step of length dt: each flow times dt. */
  function Deltas(g: Groups, k: Rates, dt: real): (d: Groups)
    requires g.Living() != 0.0
    ensures dt == 0.0 ==> d == Groups(0.0, 0.0, 0.0, 0.0, 0.0, 0.0, 0.0)
    ensures k == NoRates ==> d == Groups(0.0, 0.0, 0.0, 0.0, 0.0, 0.0, 0.0)
  {
    Flows(g, k).Scale(dt)
  }

  /** The lower bound applied to every compartment after the update: max(x, 0). */
  function Clamp(x: real): (c: real)
    ensures c >= 0.0 && c >= x
    ensures c == x || c == 0.0
  {
    if x < 0.0 then 0.0 else x
  }

  /** `c` is what the lower bound makes of `x`: `x` itself when it is non-negative, 0 otherwise. */
  predicate ClampedValue(c: real, x: real)
  {
    (x >= 0.0 ==> c == x) && (x < 0.0 ==> c == 0.0)
  }

  /** Every compartment of `c` is the lower bound of the same compartment of `g`, on its own. */
  predicate ClampedFrom(c: Groups, g: Groups)
  {
    ClampedValue(c.s, g.s) && ClampedValue(c.i, g.i) && ClampedValue(c.r, g.r) && ClampedValue(c.xs, g.xs)
    && ClampedValue(c.xi, g.xi) && ClampedValue(c.dn, g.dn) && ClampedValue(c.di, g.di)
  }

  /** The lower bound applied compartment by compartment. */
  function ClampAll(g: Groups): (c: Groups)
    ensures c.NonNegative()
    ensures ClampedFrom(c, g)
    ensures g.NonNegative() ==> c == g
  {
    Groups(Clamp(g.s), Clamp(g.i), Clamp(g.r), Clamp(g.xs), Clamp(g.xi), Clamp(g.dn), Clamp(g.di))
  }

  /**
   * One explicit Euler step of the SIRXD model. The step divides by the living
   * total N = S+I+R+Xs+Xi, so a zero N raises; otherwise every compartment moves by
   * its delta, is clamped at 0, and N is recomputed from the clamped values.
   */
  function UpdatePopulation(S: real, I: real, R: real, Xs: real, Xi: real, Dn: real, Di: real,
                            beta: real, gamma: real, delta: real, ks: real, ki: real, ke: real,
                            v: real := 0.0, mu: real := 0.0, dt: real := 1.0): (res: Result<StepResult, StepError>)
    ensures res.Failure? <==> S + I + R + Xs + Xi == 0.0
    ensures res.Failure? ==> res.error == ZeroDivision
    ensures res.Success? ==> res.value.groups.NonNegative()
    ensures res.Success? ==> res.value.n == res.value.groups.s + res.value.groups.i + res.value.groups.r
                                             + res.value.groups.xs + res.value.groups.xi
    ensures res.Success? ==>
              var g := Groups(S, I, R, Xs, Xi, Dn, Di);
              var moved := g.Plus(Deltas(g, Rates(beta, gamma, delta, ks, ki, ke, v, mu), dt));
              ClampedFrom(res.value.groups, moved) && (moved.NonNegative() ==> res.value.groups == moved)
  {
    var g := Groups(S, I, R, Xs, Xi, Dn, Di);
    if g.Living() == 0.0 then Failure(ZeroDivision)
    else
      var next := ClampAll(g.Plus(Deltas(g, Rates(beta, gamma, delta, ks, ki, ke, v, mu), dt)));
      Success(StepResult(next, next.Living()))
  }

  /** The step applied to a group tuple and a rate tuple spread into its arguments. */
  function UpdateGroups(groups: Groups, rates: Rates, dt: real := 1.0): (res: Result<StepResult, StepError>)
    ensures res == UpdatePopulation(groups.s, groups.i, groups.r, groups.xs, groups.xi, groups.dn, groups.di,
                                    rates.beta, rates.gamma, rates.delta, rates.ks, rates.ki, rates.ke,
                                    rates.v, rates.mu, dt)
    ensures res.Failure? <==> groups.Living() == 0.0
  {
    UpdatePopulation(groups.s, groups.i, groups.r, groups.xs, groups.xi, groups.dn, groups.di,
                     rates.beta, rates.gamma, rates.delta, rates.ks, rates.ki, rates.ke,
                     rates.v, rates.mu, dt)
  }

  /** The flows between compartments cancel: the seven deltas add up to the births v·N·dt. */
  lemma DeltasSumToBirths(g: Groups, k: Rates, dt: real)
    requires g.Living() != 0.0
    ensures var d := Deltas(g, k, dt);
            d.s + d.i + d.r + d.xs + d.xi + d.dn + d.di == k.v * g.Living() * dt
  {
    var n := g.Living();
    var fl := Flows(g, k);
    FlowsCancel(k.v * n, k.ke * g.xs, k.beta * g.s * g.i / n, k.ks * g.s, k.mu * g.s, k.gamma * g.i,
                k.ks * g.i, k.ki * g.i, k.delta * g.i, k.mu * g.i, k.gamma * g.xi, k.mu * g.r,
                k.mu * g.xs, k.delta * g.xi, k.mu * g.xi);
    SevenTimes(fl.s, fl.i, fl.r, fl.xs, fl.xi, fl.dn, fl.di, dt);
  }

  /**
   * Every flow but the births leaves one compartment and enters another, so in the sum of
   * the seven flows everything cancels except the births.
   */
  lemma FlowsCancel(births: real, unquarantine: real, infections: real, quarantineS: real, deathsS: real,
                    recoveries: real, quarantineI: real, isolation: real, killed: real, deathsI: real,
                    recoveriesX: real, deathsR: real, deathsXs: real, killedX: real, deathsXi: real)
    ensures (births + unquarantine - infections - quarantineS - deathsS)
            + (infections - recoveries - quarantineI - isolation - killed - deathsI)
            + (recoveries + recoveriesX - deathsR)
            + (quarantineS - unquarantine - deathsXs)
            + (quarantineI + isolation - recoveriesX - killedX - deathsXi)
            + (deathsS + deathsXs + deathsI + deathsXi + deathsR)
            + (killed + killedX)
            == births
  {
  }

  /** Multiplying seven amounts by dt one by one is multiplying their sum by dt. */
  lemma SevenTimes(a: real, b: real, c: real, e: real, f: real, h: real, l: real, dt: real)
    ensures a * dt + b * dt + c * dt + e * dt + f * dt + h * dt + l * dt == (a + b + c + e + f + h + l) * dt
  {
  }

  /**
   * When no compartment is clamped, each result is the old value plus its delta,
   * and the sum of all seven compartments grows by exactly the births v·N·dt.
   */
  lemma UnclampedStepAddsOnlyBirths(g: Groups, k: Rates, dt: real)
    requires g.Living() != 0.0
    requires g.Plus(Deltas(g, k, dt)).NonNegative()
    ensures UpdateGroups(g, k, dt).Success?
    ensures UpdateGroups(g, k, dt).value.groups == g.Plus(Deltas(g, k, dt))
    ensures UpdateGroups(g, k, dt).value.groups.Total() == g.Total() + k.v * g.Living() * dt
  {
    DeltasSumToBirths(g, k, dt);
  }

  /** With non-negative sizes, rates and step length, the two death compartments never shrink. */
  lemma DeathsNeverDecrease(g: Groups, k: Rates, dt: real)
    requires g.Living() != 0.0 && g.NonNegative() && k.NonNegative() && dt >= 0.0
    ensures UpdateGroups(g, k, dt).Success?
    ensures UpdateGroups(g, k, dt).value.groups.dn >= g.dn
    ensures UpdateGroups(g, k, dt).value.groups.di >= g.di
  {
    DeathDeltasNonNegative(g, k, dt);
  }

  /** With non-negative sizes, rates and step length, both death deltas are non-negative. */
  lemma DeathDeltasNonNegative(g: Groups, k: Rates, dt: real)
    requires g.Living() != 0.0 && g.NonNegative() && k.NonNegative() && dt >= 0.0
    ensures Deltas(g, k, dt).dn >= 0.0 && Deltas(g, k, dt).di >= 0.0
  {
    var d := Deltas(g, k, dt);
    assert k.mu * g.s + k.mu * g.xs + k.mu * g.i + k.mu * g.xi + k.mu * g.r == k.mu * g.Living();
    assert k.mu * g.Living() >= 0.0;
    assert d.dn >= 0.0;
    assert k.delta * g.i + k.delta * g.xi == k.delta * (g.i + g.xi);
    assert k.delta * (g.i + g.xi) >= 0.0;
    assert d.di >= 0.0;
  }

  /** With every rate zero, a step leaves valid (non-negative) compartments unchanged. */
  lemma ZeroRatesLeaveGroupsUnchanged(g: Groups, dt: real)
    requires g.Living() != 0.0 && g.NonNegative()
    ensures UpdateGroups(g, NoRates, dt) == Success(StepResult(g, g.Living()))
  {
    var d := Deltas(g, NoRates, dt);
    assert d == Groups(0.0, 0.0, 0.0, 0.0, 0.0, 0.0, 0.0);
    assert g.Plus(d) == g;
  }

  /**
   * With only β and γ non-zero and nobody quarantined, the step is the classic SIR step:
   * β·S·I/N·dt people fall ill and γ·I·dt recover; no one is born, dies or is isolated.
   */
  lemma SirSpecialCase(g: Groups, k: Rates, dt: real)
    requires g.Living() != 0.0 && g.xs == 0.0 && g.xi == 0.0
    requires k.delta == 0.0 && k.ks == 0.0 && k.ki == 0.0 && k.ke == 0.0 && k.v == 0.0 && k.mu == 0.0
    ensures var infections := k.beta * g.s * g.i / g.Living();
            Deltas(g, k, dt) == Groups(-infections * dt, (infections - k.gamma * g.i) * dt, k.gamma * g.i * dt,
                                       0.0, 0.0, 0.0, 0.0)
  {
  }

  /**
   * A worked step: S=999, I=1, β=0.5, γ=0.1, dt=1. Infections are 0.5·999·1/1000 = 0.4995
   * and recoveries 0.1, so S becomes 998.5005, I becomes 1.3995 and R becomes 0.1.
   */
  lemma OneInfectiousDeltas()
    ensures var d := Deltas(Groups(999.0, 1.0, 0.0, 0.0, 0.0, 0.0, 0.0), Rates(0.5, 0.1, 0.0, 0.0, 0.0, 0.0, 0.0, 0.0), 1.0);
            d.s == -0.4995 && d.i == 0.3995 && d.r == 0.1 && d.xs == 0.0 && d.xi == 0.0 && d.dn == 0.0 && d.di == 0.0
  {
    var g := Groups(999.0, 1.0, 0.0, 0.0, 0.0, 0.0, 0.0);
    assert g.Living() == 1000.0;
    assert 0.5 * g.s * g.i / g.Living() == 0.4995;
  }

  // ----- the driver loop -----

  /** The adaptive birth rate v = μ + δ·(I+Xi)·dt / N. */
  function AdaptedBirthRate(g: Groups, k: Rates, dt: real): (v: real)
    requires g.Living() != 0.0
    ensures k.delta == 0.0 || g.i + g.xi == 0.0 || dt == 0.0 ==> v == k.mu
  {
    k.mu + k.delta * (g.i + g.xi) * dt / g.Living()
  }

  lemma FactorOut(m: real, a: real, b: real, c: real, d: real, e: real)
    ensures m * a + m * b + m * c + m * d + m * e == m * (a + b + c + d + e)
  {
  }

  /**
   * The adaptive birth rate makes births v·N equal the natural deaths μ·N plus the epidemic
   * deaths δ·(I+Xi), the latter scaled by dt; for the default step dt = 1 the two balance.
   */
  lemma AdaptedBirthRateBalancesDeaths(g: Groups, k: Rates, dt: real)
    requires g.Living() != 0.0
    ensures AdaptedBirthRate(g, k, dt) * g.Living() == k.mu * g.Living() + k.delta * (g.i + g.xi) * dt
  {
    var n := g.Living();
    var extra := k.delta * (g.i + g.xi) * dt;
    assert extra / n * n == extra;
    assert (k.mu + extra / n) * n == k.mu * n + extra / n * n;
  }

  /** The two death compartments grow by μ·N·dt and δ·(I+Xi)·dt. */
  lemma DeathDeltas(g: Groups, k: Rates, dt: real)
    requires g.Living() != 0.0
    ensures Deltas(g, k, dt).dn + Deltas(g, k, dt).di == (k.mu * g.Living() + k.delta * (g.i + g.xi)) * dt
  {
    var fl := Flows(g, k);
    FactorOut(k.mu, g.s, g.i, g.r, g.xs, g.xi);
    FactorTwo(k.delta, g.i, g.xi);
    TwoTimes(fl.dn, fl.di, dt);
  }

  lemma FactorTwo(m: real, a: real, b: real)
    ensures m * a + m * b == m * (a + b)
  {
  }

  lemma TwoTimes(a: real, b: real, dt: real)
    ensures a * dt + b * dt == (a + b) * dt
  {
  }

  /**
   * If seven changes add up to births·dt, the last two to deaths·dt, and births equal
   * deaths, then the first five cancel out.
   */
  lemma FiveCancel(a: real, b: real, c: real, d: real, e: real, x: real, y: real, births: real, deaths: real, dt: real)
    requires a + b + c + d + e + x + y == births * dt
    requires x + y == deaths * dt
    requires births == deaths
    ensures a + b + c + d + e == 0.0
  {
  }

  /**
   * When births balance deaths in that sense, the unclamped moves of a step leave the
   * living total N unchanged: the epidemic only moves people between compartments.
   */
  lemma BalancedBirthsKeepLivingTotal(g: Groups, k: Rates, dt: real)
    requires g.Living() != 0.0
    requires k.v * g.Living() == k.mu * g.Living() + k.delta * (g.i + g.xi)
    ensures g.Plus(Deltas(g, k, dt)).Living() == g.Living()
  {
    var d := Deltas(g, k, dt);
    DeltasSumToBirths(g, k, dt);
    DeathDeltas(g, k, dt);
    FiveCancel(d.s, d.i, d.r, d.xs, d.xi, d.dn, d.di,
               k.v * g.Living(), k.mu * g.Living() + k.delta * (g.i + g.xi), dt);
  }

  /** With the adaptive birth rate, the unclamped moves of a unit step keep N unchanged. */
  lemma AdaptiveMovesKeepLivingTotal(g: Groups, k: Rates)
    requires g.Living() != 0.0
    ensures g.Plus(Deltas(g, k.(v := AdaptedBirthRate(g, k, 1.0)), 1.0)).Living() == g.Living()
  {
    AdaptedBirthRateBalancesDeaths(g, k, 1.0);
    BalancedBirthsKeepLivingTotal(g, k.(v := AdaptedBirthRate(g, k, 1.0)), 1.0);
  }

  /**
   * For a step other than dt = 1 the adaptive rate does not balance: the unclamped moves
   * change N by δ·(I+Xi)·dt·(dt−1), because the births carry the factor dt twice.
   */
  lemma AdaptiveDrift(g: Groups, k: Rates, dt: real)
    requires g.Living() != 0.0 && k.v == AdaptedBirthRate(g, k, dt)
    ensures g.Plus(Deltas(g, k, dt)).Living() == g.Living() + k.delta * (g.i + g.xi) * dt * (dt - 1.0)
  {
    AdaptedBirthRateBalancesDeaths(g, k, dt);
    DriftWithScaledBirths(g, k, dt);
  }

  /**
   * When births v·N equal μ·N + δ·(I+Xi)·dt, the unclamped moves of a step of length dt
   * change N by δ·(I+Xi)·dt·(dt−1).
   */
  lemma DriftWithScaledBirths(g: Groups, k: Rates, dt: real)
    requires g.Living() != 0.0
    requires k.v * g.Living() == k.mu * g.Living() + k.delta * (g.i + g.xi) * dt
    ensures g.Plus(Deltas(g, k, dt)).Living() == g.Living() + k.delta * (g.i + g.xi) * dt * (dt - 1.0)
  {
    LivingChange(g, k, dt);
    DriftAlgebra(g.Plus(Deltas(g, k, dt)).Living(), g.Living(),
                 k.v * g.Living(), k.mu * g.Living(), k.delta * (g.i + g.xi), dt);
  }

  /** The unclamped moves change N by the births v·N·dt minus both kinds of deaths. */
  lemma LivingChange(g: Groups, k: Rates, dt: real)
    requires g.Living() != 0.0
    ensures g.Plus(Deltas(g, k, dt)).Living()
            == g.Living() + (k.v * g.Living() * dt - (k.mu * g.Living() + k.delta * (g.i + g.xi)) * dt)
  {
    var d := Deltas(g, k, dt);
    DeltasSumToBirths(g, k, dt);
    DeathDeltas(g, k, dt);
    PlusLiving(g, d);
  }

  /** Adding changes to the compartments adds the changes of the five living ones to N. */
  lemma PlusLiving(g: Groups, d: Groups)
    ensures g.Plus(d).Living() == g.Living() + (d.s + d.i + d.r + d.xs + d.xi)
  {
  }

  /**
   * If a total moves by V·dt − (M + D)·dt and births V are M + D·dt, it moves by
   * D·dt·(dt − 1).
   */
  lemma DriftAlgebra(after: real, before: real, births: real, m: real, deaths: real, dt: real)
    requires after == before + (births * dt - (m + deaths) * dt)
    requires births == m + deaths * dt
    ensures after == before + deaths * dt * (dt - 1.0)
  {
  }

  /**
   * With the adaptive birth rate and nothing clamped, a unit step of the driver returns the
   * same living total N it started from.
   */
  lemma AdaptiveStepKeepsLivingTotal(g: Groups, k: Rates)
    requires g.Living() != 0.0
    requires g.Plus(Deltas(g, k.(v := AdaptedBirthRate(g, k, 1.0)), 1.0)).NonNegative()
    ensures DriverStep(g, k, 1.0, true).Success?
    ensures DriverStep(g, k, 1.0, true).value.n == g.Living()
  {
    AdaptiveMovesKeepLivingTotal(g, k);
    UnclampedStepAddsOnlyBirths(g, k.(v := AdaptedBirthRate(g, k, 1.0)), 1.0);
  }

  /** One iteration of the driver: optionally adapt v, then step. */
  function DriverStep(g: Groups, k: Rates, dt: real, adapt: bool): (res: Result<StepResult, StepError>)
    ensures res.Failure? <==> g.Living() == 0.0
    ensures res.Success? ==> res.value.groups.NonNegative() && res.value.n == res.value.groups.Living()
  {
    if !adapt then UpdateGroups(g, k, dt)
    else if g.Living() == 0.0 then Failure(ZeroDivision)
    else UpdateGroups(g, k.(v := AdaptedBirthRate(g, k, dt)), dt)
  }

  /** The driver's step is the model step with the birth rate the driver holds. */
  lemma DriverStepCalls(g: Groups, k: Rates, dt: real, adapt: bool, v: real)
    requires !adapt ==> v == k.v
    requires adapt ==> g.Living() != 0.0 && v == AdaptedBirthRate(g, k, dt)
    ensures DriverStep(g, k, dt, adapt) == UpdatePopulation(g.s, g.i, g.r, g.xs, g.xi, g.dn, g.di, k.beta, k.gamma,
                                                            k.delta, k.ks, k.ki, k.ke, v, k.mu, dt)
  {
  }

  /** The driver's starting point: N−I susceptible, I infectious, nothing else; N recorded as S+I+R. */
  function Initial(n: real, i: real): (start: StepResult)
    ensures start.n == n && start.groups.Living() == n && start.groups.i == i
    ensures start.groups.dn == 0.0 && start.groups.di == 0.0
    ensures 0.0 <= i <= n ==> start.groups.NonNegative()
  {
    StepResult(Groups(n - i, i, 0.0, 0.0, 0.0, 0.0, 0.0), (n - i) + i + 0.0)
  }

  /** The number of steps `range(1, T)` runs. */
  function StepCount(t: int): (c: nat)
    ensures t >= 1 ==> c == t - 1
    ensures t <= 1 ==> c == 0
  {
    if t >= 1 then t - 1 else 0
  }

  /**
   * The states the driver records: the start and then one entry per step; the first
   * step that divides by a zero living total makes the whole run fail.
   */
  function Trajectory(start: StepResult, k: Rates, dt: real, adapt: bool, steps: nat): (res: Result<seq<StepResult>, StepError>)
    ensures res.Success? ==> |res.value| == steps + 1 && res.value[0] == start
    ensures res.Success? ==> forall j :: 1 <= j < |res.value| ==>
              res.value[j].groups.NonNegative() && res.value[j].n == res.value[j].groups.Living()
    decreases steps
  {
    if steps == 0 then Success([start])
    else
      match Trajectory(start, k, dt, adapt, steps - 1)
      case Failure(e) => Failure(e)
      case Success(states) =>
        match DriverStep(states[|states| - 1].groups, k, dt, adapt)
        case Failure(e) => Failure(e)
        case Success(next) => Success(states + [next])
  }

  /** Once a run has failed, running it longer fails with the same error. */
  lemma {:induction false} FailureIsFinal(start: StepResult, k: Rates, dt: real, adapt: bool, failed: nat, steps: nat)
    requires failed <= steps
    requires Trajectory(start, k, dt, adapt, failed).Failure?
    ensures Trajectory(start, k, dt, adapt, steps) == Trajectory(start, k, dt, adapt, failed)
    decreases steps - failed
  {
    if steps > failed {
      FailedStepStaysFailed(start, k, dt, adapt, failed + 1);
      FailureIsFinal(start, k, dt, adapt, failed + 1, steps);
    }
  }

  /** A run whose first `steps - 1` steps failed fails, with the same error, after `steps`. */
  lemma FailedStepStaysFailed(start: StepResult, k: Rates, dt: real, adapt: bool, steps: nat)
    requires steps >= 1 && Trajectory(start, k, dt, adapt, steps - 1).Failure?
    ensures Trajectory(start, k, dt, adapt, steps) == Trajectory(start, k, dt, adapt, steps - 1)
  {
  }

  /** One more driver step extends a run, or makes the whole run fail with that step's error. */
  lemma TrajectoryNext(start: StepResult, k: Rates, dt: real, adapt: bool, step: nat, steps: nat,
                       states: seq<StepResult>)
    requires step < steps
    requires Trajectory(start, k, dt, adapt, step) == Success(states)
    ensures |states| == step + 1
    ensures var out := DriverStep(states[step].groups, k, dt, adapt);
            (out.Success? ==> Trajectory(start, k, dt, adapt, step + 1) == Success(states + [out.value]))
            && (out.Failure? ==> Trajectory(start, k, dt, adapt, steps) == Failure(out.error))
  {
    if DriverStep(states[step].groups, k, dt, adapt).Failure? {
      FailureIsFinal(start, k, dt, adapt, step + 1, steps);
    }
  }

  /** The eight recorded series. */
  datatype Series = Series(s: seq<real>, i: seq<real>, r: seq<real>, xs: seq<real>, xi: seq<real>,
                           dn: seq<real>, di: seq<real>, n: seq<real>)
  {
    /** All eight series have the same, non-zero length. */
    predicate Aligned()
    {
      |s| >= 1 && |i| == |s| && |r| == |s| && |xs| == |s| && |xi| == |s| && |dn| == |s| && |di| == |s| && |n| == |s|
    }

    /** The state recorded at position `j`. */
    function At(j: nat): StepResult
      requires Aligned() && j < |s|
    {
      StepResult(Groups(s[j], i[j], r[j], xs[j], xi[j], dn[j], di[j]), n[j])
    }

    /** The most recently recorded state. */
    function Last(): StepResult
      requires Aligned()
    {
      At(|s| - 1)
    }

    /** One more recorded state: each series gets its entry appended. */
    function Then(next: StepResult): Series
    {
      Series(s + [next.groups.s], i + [next.groups.i], r + [next.groups.r], xs + [next.groups.xs],
             xi + [next.groups.xi], dn + [next.groups.dn], di + [next.groups.di], n + [next.n])
    }

    /** Every series of `before` is a prefix of the corresponding series here. */
    predicate Extends(before: Series)
    {
      before.s <= s && before.i <= i && before.r <= r && before.xs <= xs && before.xi <= xi
      && before.dn <= dn && before.di <= di && before.n <= n
    }
  }

  function SeriesOf(states: seq<StepResult>): Series
  {
    Series(seq(|states|, j requires 0 <= j < |states| => states[j].groups.s),
           seq(|states|, j requires 0 <= j < |states| => states[j].groups.i),
           seq(|states|, j requires 0 <= j < |states| => states[j].groups.r),
           seq(|states|, j requires 0 <= j < |states| => states[j].groups.xs),
           seq(|states|, j requires 0 <= j < |states| => states[j].groups.xi),
           seq(|states|, j requires 0 <= j < |states| => states[j].groups.dn),
           seq(|states|, j requires 0 <= j < |states| => states[j].groups.di),
           seq(|states|, j requires 0 <= j < |states| => states[j].n))
  }

  /** Recording a state keeps the series aligned, makes it the last entry and keeps the earlier ones. */
  lemma ThenRecords(h: Series, next: StepResult)
    requires h.Aligned()
    ensures h.Then(next).Aligned() && h.Then(next).Last() == next && h.Then(next).Extends(h)
    ensures forall j :: 0 <= j < |h.s| ==> h.Then(next).At(j) == h.At(j)
  {
  }

  /** Recording one more state appends one entry to each series. */
  lemma SeriesOfSnoc(states: seq<StepResult>, next: StepResult)
    ensures SeriesOf(states + [next]) == SeriesOf(states).Then(next)
  {
  }

  /**
   * The series projected from a successful run: each has one entry per recorded state, and
   * every entry after the first is a valid state whose N is the sum of the five living groups.
   */
  lemma TrajectorySeries(start: StepResult, k: Rates, dt: real, adapt: bool, steps: nat)
    requires Trajectory(start, k, dt, adapt, steps).Success?
    ensures var sr := SeriesOf(Trajectory(start, k, dt, adapt, steps).value);
            |sr.s| == steps + 1 && |sr.i| == steps + 1 && |sr.r| == steps + 1 && |sr.xs| == steps + 1
            && |sr.xi| == steps + 1 && |sr.dn| == steps + 1 && |sr.di| == steps + 1 && |sr.n| == steps + 1
            && sr.s[0] == start.groups.s && sr.i[0] == start.groups.i && sr.r[0] == start.groups.r
            && sr.xs[0] == start.groups.xs && sr.xi[0] == start.groups.xi && sr.dn[0] == start.groups.dn
            && sr.di[0] == start.groups.di && sr.n[0] == start.n
            && forall j :: 1 <= j < |sr.n| ==>
                 sr.s[j] >= 0.0 && sr.i[j] >= 0.0 && sr.r[j] >= 0.0 && sr.xs[j] >= 0.0
                 && sr.xi[j] >= 0.0 && sr.dn[j] >= 0.0 && sr.di[j] >= 0.0
                 && sr.n[j] == sr.s[j] + sr.i[j] + sr.r[j] + sr.xs[j] + sr.xi[j]
  {
    var states := Trajectory(start, k, dt, adapt, steps).value;
    var sr := SeriesOf(states);
    forall j | 1 <= j < |sr.n|
      ensures sr.s[j] >= 0.0 && sr.i[j] >= 0.0 && sr.r[j] >= 0.0 && sr.xs[j] >= 0.0
              && sr.xi[j] >= 0.0 && sr.dn[j] >= 0.0 && sr.di[j] >= 0.0
              && sr.n[j] == sr.s[j] + sr.i[j] + sr.r[j] + sr.xs[j] + sr.xi[j]
    {
      assert states[j].groups.NonNegative() && states[j].n == states[j].groups.Living();
    }
  }

  /**
   * What the driver records: the series of its trajectory from (N−I, I, 0, 0, 0, 0, 0) over
   * T−1 steps, or the error of the step that failed. Each series has max(T, 1) entries,
   * starts at the initial value, and every later entry is a valid state.
   */
  function DriverSeries(n: real, i: real, t: int, rates: Rates, dt: real, adapt: bool): (res: Result<Series, StepError>)
    ensures res.Success? ==>
              var len := if t >= 1 then t else 1;
              |res.value.s| == len && |res.value.i| == len && |res.value.r| == len && |res.value.xs| == len
              && |res.value.xi| == len && |res.value.dn| == len && |res.value.di| == len && |res.value.n| == len
    ensures res.Success? ==> res.value.s[0] == n - i && res.value.i[0] == i && res.value.r[0] == 0.0
                             && res.value.xs[0] == 0.0 && res.value.xi[0] == 0.0 && res.value.dn[0] == 0.0
                             && res.value.di[0] == 0.0 && res.value.n[0] == n
    ensures res.Success? ==> forall j :: 1 <= j < |res.value.n| ==>
              res.value.s[j] >= 0.0 && res.value.i[j] >= 0.0 && res.value.r[j] >= 0.0 && res.value.xs[j] >= 0.0
              && res.value.xi[j] >= 0.0 && res.value.dn[j] >= 0.0 && res.value.di[j] >= 0.0
              && res.value.n[j] == res.value.s[j] + res.value.i[j] + res.value.r[j] + res.value.xs[j] + res.value.xi[j]
    ensures res.Failure? <==> Trajectory(Initial(n, i), rates, dt, adapt, StepCount(t)).Failure?
  {
    var tr := Trajectory(Initial(n, i), rates, dt, adapt, StepCount(t));
    if tr.Failure? then Failure(tr.error)
    else
      TrajectorySeries(Initial(n, i), rates, dt, adapt, StepCount(t));
      Success(SeriesOf(tr.value))
  }

  /**
   * The driver loop: starts at (N−I, I, 0, 0, 0, 0, 0), runs T−1 steps (adapting the birth
   * rate first when asked) and records every state. Plotting the series is not modelled.
   */
  method SimEpidemicSirxd(n: real, i: real, t: int, rates: Rates, dt: real := 1.0, adapt: bool := true)
    returns (res: Result<Series, StepError>)
    ensures var tr := Trajectory(Initial(n, i), rates, dt, adapt, StepCount(t));
            res == if tr.Success? then Success(SeriesOf(tr.value)) else Failure(tr.error)
    ensures res == DriverSeries(n, i, t, rates, dt, adapt)
  {
    var start := Initial(n, i);
    var steps := StepCount(t);
    var g := start.groups;
    var series := Series([g.s], [g.i], [g.r], [g.xs], [g.xi], [g.dn], [g.di], [start.n]);
    ghost var states := [start];
    for step := 0 to steps
      invariant Trajectory(start, rates, dt, adapt, step) == Success(states)
      invariant states[|states| - 1].groups == g
      invariant series == SeriesOf(states)
    {
      TrajectoryNext(start, rates, dt, adapt, step, steps, states);
      var v := rates.v;
      if adapt {
        // the rebalanced birth rate divides by the living population
        if g.s + g.i + g.r + g.xs + g.xi == 0.0 { return Failure(ZeroDivision); }
        v := AdaptedBirthRate(g, rates, dt);
      }
      var out := UpdatePopulation(g.s, g.i, g.r, g.xs, g.xi, g.dn, g.di,
                                  rates.beta, rates.gamma, rates.delta, rates.ks, rates.ki, rates.ke,
                                  v, rates.mu, dt);
      DriverStepCalls(g, rates, dt, adapt, v);
      if out.Failure? { return Failure(out.error); }
      g := out.value.groups;
      SeriesOfSnoc(states, out.value);
      series := series.Then(out.value);
      states := states + [out.value];
    }
    return Success(series);
  }
}

=== FILE: stochastic_sim_epidemic.dfy ===
/**
 * The agent-based SIR simulation: people with a home on a grid who sleep, go outside and meet
 * each other; a susceptible person near an infectious one outside may catch the infection, and
 * an infectious person recovers after a drawn duration. Two samplers record how many people are
 * in each state and estimate the SIR rates over a sliding window.
 *
 * Every random draw (a home, a lifespan, a duration, a coin) is a parameter, and each phase of a
 * person's day is one method call with the current time passed in.
 */
module StochasticSim {
  import opened Wrappers

  /** The squared radius within which an infection can pass (8²). */
  const INFECTIOUS_DISTANCE_SQUARED: int := 64

  /** The number of people the statistics divide by. */
  const NUM_PEOPLE: nat := 500

  /** The width of the statistics window, in samples (one sample per hour). */
  const STATS_SAMPLE_TIME: nat := 24

  /** The shortest infection a person can have, in hours. */
  const MIN_RECOVER_TIME: real := 24.0

  /** A point on the grid; the simulation draws two coordinates, the distance works for any number. */
  type Location = seq<int>

  /**
   * The sum of the squared coordinate differences. Coordinates are paired up position by
   * position, and the longer location's surplus coordinates are ignored.
   */
  function DistanceSquared(a: Location, b: Location): (d: int)
    ensures d >= 0
    decreases |a|
  {
    if a == [] || b == [] then 0
    else (a[0] - b[0]) * (a[0] - b[0]) + DistanceSquared(a[1..], b[1..])
  }

  lemma {:induction false} DistanceSymmetric(a: Location, b: Location)
    ensures DistanceSquared(a, b) == DistanceSquared(b, a)
    decreases |a|
  {
    if a != [] && b != [] {
      DistanceSymmetric(a[1..], b[1..]);
      assert (a[0] - b[0]) * (a[0] - b[0]) == (b[0] - a[0]) * (b[0] - a[0]);
    }
  }

  /** Two locations with the same number of coordinates are at distance 0 exactly when they are equal. */
  lemma {:induction false} DistanceZeroIffEqual(a: Location, b: Location)
    requires |a| == |b|
    ensures DistanceSquared(a, b) == 0 <==> a == b
    decreases |a|
  {
    if a != [] {
      DistanceZeroIffEqual(a[1..], b[1..]);
      var x := a[0] - b[0];
      if x != 0 {
        assert x * x > 0 by {
          if x > 0 { assert x * x >= x; } else { assert x * x >= -x; }
        }
        assert a[0] != b[0];
      }
      if a[0] == b[0] && a[1..] == b[1..] {
        assert a == [a[0]] + a[1..] && b == [b[0]] + b[1..];
      }
    }
  }

  /** The health state of a person. */
  datatype SIR = Susceptible | Infectious | Recovered

  /** The state a recovery check leaves: an infection that has lasted long enough ends. */
  function AfterRecover(state: SIR, infectedFor: real, recoverTime: real): (next: SIR)
    ensures next != state <==> state == Infectious && infectedFor >= recoverTime
    ensures next != state ==> next == Recovered
  {
    if state == Infectious && infectedFor >= recoverTime then Recovered else state
  }

  /**
   * The generator of person ids, shared by all people: each id is one more than the last,
   * starting at 1.
   */
  class NameGenerator {
    var counter: nat
    /** The ids handed out so far, in order. */
    ghost var issued: seq<nat>

    ghost predicate Valid()
      reads this
    {
      |issued| == counter && forall j :: 0 <= j < |issued| ==> issued[j] == j + 1
    }

    constructor()
      ensures Valid() && counter == 0 && issued == []
    {
      counter, issued := 0, [];
    }

    /** Hands out the next id: larger than every id handed out before. */
    method GenName() returns (id: nat)
      requires Valid()
      modifies this
      ensures Valid()
      ensures id == old(counter) + 1 && counter == id
      ensures issued == old(issued) + [id]
      ensures forall x :: x in old(issued) ==> x < id
    {
      counter := counter + 1;
      id := counter;
      issued := issued + [id];
    }
  }

  /** A person of the agent model. */
  class Person {
    var name: nat
    var home: Location
    var location: Location
    var isOutside: bool
    var birthTime: real
    var lifespan: real
    var state: SIR
    var infectionTime: real
    var recoverTime: real

    /**
     * Sets every field as a newborn: a given (truthy) name and home are kept, otherwise the
     * next id and the drawn home are taken; the person is at home, not outside, born now, and
     * has not been infected. The recovery time is the drawn one, but at least 24 hours.
     */
    method Init(names: NameGenerator, now: real, drawnHome: Location, drawnLifespan: real,
                drawnRecoverTime: real, name: Option<nat>, home: Option<Location>, state: SIR)
      requires names.Valid()
      modifies this, names
      ensures names.Valid()
      ensures name.Some? && name.value != 0 ==> this.name == name.value && names.counter == old(names.counter)
      ensures !(name.Some? && name.value != 0) ==> this.name == names.counter == old(names.counter) + 1
      ensures this.home == if home.Some? && home.value != [] then home.value else drawnHome
      ensures location == this.home && !isOutside
      ensures birthTime == now && lifespan == drawnLifespan
      ensures this.state == state && infectionTime == 0.0
      ensures recoverTime >= MIN_RECOVER_TIME && recoverTime >= drawnRecoverTime
      ensures recoverTime == MIN_RECOVER_TIME || recoverTime == drawnRecoverTime
    {
      if name.Some? && name.value != 0 {
        this.name := name.value;
      } else {
        this.name := names.GenName();
      }
      this.home := if home.Some? && home.value != [] then home.value else drawnHome;
      location, isOutside := this.home, false;
      birthTime, lifespan := now, drawnLifespan;
      this.state, infectionTime := state, 0.0;
      recoverTime := if drawnRecoverTime >= MIN_RECOVER_TIME then drawnRecoverTime else MIN_RECOVER_TIME;
    }

    constructor(names: NameGenerator, now: real, drawnHome: Location, drawnLifespan: real,
                drawnRecoverTime: real, name: Option<nat> := None, home: Option<Location> := None,
                state: SIR := Susceptible)
      requires names.Valid()
      modifies names
      ensures names.Valid()
      ensures name.Some? && name.value != 0 ==> this.name == name.value && names.counter == old(names.counter)
      ensures !(name.Some? && name.value != 0) ==> this.name == names.counter == old(names.counter) + 1
      ensures this.home == if home.Some? && home.value != [] then home.value else drawnHome
      ensures location == this.home && !isOutside
      ensures birthTime == now && lifespan == drawnLifespan
      ensures this.state == state && infectionTime == 0.0
      ensures recoverTime >= MIN_RECOVER_TIME && recoverTime >= drawnRecoverTime
      ensures recoverTime == MIN_RECOVER_TIME || recoverTime == drawnRecoverTime
    {
      new;
      Init(names, now, drawnHome, drawnLifespan, drawnRecoverTime, name, home, state);
    }

    /** A person whose lifespan is over is replaced by a newborn: new id, new home, susceptible. */
    method Rebirth(names: NameGenerator, now: real, drawnHome: Location, drawnLifespan: real,
                   drawnRecoverTime: real)
      requires names.Valid()
      modifies this, names
      ensures names.Valid()
      ensures name == names.counter == old(names.counter) + 1
      ensures home == drawnHome && location == drawnHome && !isOutside
      ensures birthTime == now && lifespan == drawnLifespan
      ensures state == Susceptible && infectionTime == 0.0
      ensures recoverTime >= MIN_RECOVER_TIME && recoverTime >= drawnRecoverTime
      ensures recoverTime == MIN_RECOVER_TIME || recoverTime == drawnRecoverTime
    {
      Init(names, now, drawnHome, drawnLifespan, drawnRecoverTime, None, None, Susceptible);
    }

    /** Becomes infectious as of now, whatever the state was. */
    method GetInfected(now: real)
      modifies this`state, this`infectionTime
      ensures state == Infectious && infectionTime == now
    {
      state := Infectious;
      infectionTime := now;
    }

    /** Checked on waking up: an infectious person recovers once the infection has lasted long enough. */
    method Recover(now: real)
      modifies this`state
      ensures state == AfterRecover(old(state), now - infectionTime, recoverTime)
    {
      if state == Infectious {
        var infectiousTime := now - infectionTime;
        if infectiousTime >= recoverTime {
          state := Recovered;
        }
      }
    }

    /**
     * Goes to `outsideLocation` and meets the people outside nearby. A susceptible person
     * catches the infection when someone infectious is near and the first coin succeeds; an
     * infectious person infects each nearby susceptible whose coin succeeds (the k-th nearby
     * person gets coin k); a recovered person changes no one.
     */
    method GoOutside(people: seq<Person>, outsideLocation: Location, now: real, coins: nat -> bool)
      modifies this`location, this`isOutside, this`state, this`infectionTime, people`state, people`infectionTime
      ensures location == outsideLocation && isOutside
      ensures old(state) == Susceptible ==>
                var caught := old(Nearby(people, outsideLocation, Infectious)) != [] && coins(0);
                (state == if caught then Infectious else Susceptible)
                && infectionTime == (if caught then now else old(infectionTime))
                && forall p :: p in people && p != this ==> p.state == old(p.state) && p.infectionTime == old(p.infectionTime)
      ensures old(state) == Infectious ==>
                var near := old(Nearby(people, outsideLocation, Susceptible));
                state == Infectious && infectionTime == old(infectionTime)
                && forall p :: p in people ==>
                     if p in Infected(near, coins, |near|) then p.state == Infectious && p.infectionTime == now
                     else p.state == old(p.state) && p.infectionTime == old(p.infectionTime)
      ensures old(state) == Recovered ==>
                state == Recovered && infectionTime == old(infectionTime)
                && forall p :: p in people ==> p.state == old(p.state) && p.infectionTime == old(p.infectionTime)
    {
      // The scan looks for people in a state other than this person's own, so it never lists
      // this person: scanning before or after the move gives the same list.
      if state == Susceptible {
        var nearInfectious := Nearby(people, outsideLocation, Infectious);
        if nearInfectious != [] && coins(0) {
          GetInfected(now);
        }
      } else if state == Infectious {
        var near := Nearby(people, outsideLocation, Susceptible);
        assert this !in near && forall k :: 0 <= k < |near| ==> near[k] in people;
        Spread(near, now, coins);
      }
      location, isOutside := outsideLocation, true;
    }

    /** Back from outside: at home and no longer outside. */
    method ComeHome()
      modifies this`location, this`isOutside
      ensures location == home && !isOutside
    {
      isOutside := false;
      location := home;
    }
  }

  /** The people outside, in the given state, within the infection radius of `at`, in list order. */
  function Nearby(people: seq<Person>, at: Location, wanted: SIR): (near: seq<Person>)
    reads people
    ensures |near| <= |people|
    ensures forall p :: p in near ==> p in people && p.state == wanted
    ensures forall p :: p in people ==>
              (p in near <==> p.isOutside && p.state == wanted
                              && DistanceSquared(at, p.location) <= INFECTIOUS_DISTANCE_SQUARED)
    decreases |people|
  {
    if people == [] then []
    else
      var last := people[|people| - 1];
      assert people == people[..|people| - 1] + [last];
      Nearby(people[..|people| - 1], at, wanted)
      + if last.isOutside && last.state == wanted
           && DistanceSquared(at, last.location) <= INFECTIOUS_DISTANCE_SQUARED
        then [last] else []
  }

  /** A single person is listed exactly when outside, in the wanted state and within the radius. */
  lemma NearbySingle(p: Person, at: Location, wanted: SIR)
    ensures Nearby([p], at, wanted)
            == if p.isOutside && p.state == wanted && DistanceSquared(at, p.location) <= INFECTIOUS_DISTANCE_SQUARED
               then [p] else []
  {
    assert [p][..0] == [];
  }

  /**
   * Listing keeps the order and the repetitions: the people near `at` in a concatenation are
   * those of each part, in turn, so the k-th listed person is the k-th qualifying one.
   */
  lemma {:induction false} NearbyAppend(a: seq<Person>, b: seq<Person>, at: Location, wanted: SIR)
    ensures Nearby(a + b, at, wanted) == Nearby(a, at, wanted) + Nearby(b, at, wanted)
    decreases |b|
  {
    if b == [] {
      assert a + b == a;
    } else {
      var init := b[..|b| - 1];
      assert (a + b)[..|a + b| - 1] == a + init;
      assert (a + b)[|a + b| - 1] == b[|b| - 1];
      NearbyAppend(a, init, at, wanted);
    }
  }

  /** Each listed person whose coin succeeds becomes infectious as of now; the k-th person gets coin k. */
  method Spread(near: seq<Person>, now: real, coins: nat -> bool)
    modifies near`state, near`infectionTime
    ensures forall p :: p in near ==>
              if p in Infected(near, coins, |near|) then p.state == Infectious && p.infectionTime == now
              else p.state == old(p.state) && p.infectionTime == old(p.infectionTime)
  {
    for j := 0 to |near|
      invariant forall p :: p in near ==>
                  if p in Infected(near, coins, j) then p.state == Infectious && p.infectionTime == now
                  else p.state == old(p.state) && p.infectionTime == old(p.infectionTime)
    {
      if coins(j) {
        near[j].GetInfected(now);
      }
    }
  }

  /** The people among the first `upTo` of `near` whose coin succeeds. */
  ghost function Infected(near: seq<Person>, coins: nat -> bool, upTo: nat): (hit: set<Person>)
    requires upTo <= |near|
    ensures forall p :: p in hit ==> exists k :: 0 <= k < upTo && near[k] == p && coins(k)
    ensures forall k :: 0 <= k < upTo && coins(k) ==> near[k] in hit
  {
    if upTo == 0 then {}
    else Infected(near, coins, upTo - 1) + if coins(upTo - 1) then {near[upTo - 1]} else {}
  }

  // ----- the samplers -----

  /** How many of the states equal `x`. */
  function CountOf(states: seq<SIR>, x: SIR): (c: nat)
    ensures c <= |states|
  {
    if states == [] then 0
    else CountOf(states[..|states| - 1], x) + if states[|states| - 1] == x then 1 else 0
  }

  /** A state is counted zero times exactly when it does not occur. */
  lemma {:induction false} CountOfZeroIffAbsent(states: seq<SIR>, x: SIR)
    ensures CountOf(states, x) == 0 <==> x !in states
  {
    if states != [] {
      var init := states[..|states| - 1];
      CountOfZeroIffAbsent(init, x);
      assert states == init + [states[|states| - 1]];
    }
  }

  /** The states of the people, in list order. */
  function StatesOf(people: seq<Person>): (states: seq<SIR>)
    reads people
    ensures |states| == |people| && forall j :: 0 <= j < |people| ==> states[j] == people[j].state
  {
    seq(|people|, j reads people requires 0 <= j < |people| => people[j].state)
  }

  /** Appending one state raises its own count by one and leaves the other counts alone. */
  lemma CountOfSnoc(states: seq<SIR>, y: SIR, x: SIR)
    ensures CountOf(states + [y], x) == CountOf(states, x) + if y == x then 1 else 0
  {
    assert (states + [y])[..|states|] == states;
  }

  /** Every person is in exactly one of the three states. */
  lemma {:induction false} CountsSumToLength(states: seq<SIR>)
    ensures CountOf(states, Susceptible) + CountOf(states, Infectious) + CountOf(states, Recovered) == |states|
  {
    if states != [] {
      CountsSumToLength(states[..|states| - 1]);
    }
  }

  /** One sample of the group sizes. */
  datatype Sample = Sample(t: real, s: nat, i: nat, r: nat)

  /** One estimate of the rates: force of infection λ, infection rate β, recovery rate γ, R0, Reff. */
  datatype Stats = Stats(lambda: real, beta: real, gamma: real, r0: real, reff: real)

  /**
   * The estimates from the current sizes and their change over the window: λ = −dS/S,
   * β = λ·N/I, γ = dR/I, R0 = β/γ, Reff = R0·S/N, where each quotient with a zero divisor is 0.
   */
  function Estimate(cS: int, cI: int, dS: int, dR: int): (st: Stats)
    ensures cS != 0 ==> st.lambda * cS as real == -dS as real
    ensures cS == 0 ==> st.lambda == 0.0
    ensures cI != 0 ==> st.beta * cI as real == st.lambda * NUM_PEOPLE as real
    ensures cI == 0 ==> st.beta == 0.0
    ensures cI != 0 ==> st.gamma * cI as real == dR as real
    ensures cI == 0 ==> st.gamma == 0.0
    ensures st.gamma != 0.0 ==> st.r0 * st.gamma == st.beta
    ensures st.gamma == 0.0 ==> st.r0 == 0.0
    ensures st.reff * NUM_PEOPLE as real == st.r0 * cS as real
  {
    var lambda := if cS != 0 then -dS as real / cS as real else 0.0;
    var beta := if cI != 0 then lambda * NUM_PEOPLE as real / cI as real else 0.0;
    var gamma := if cI != 0 then dR as real / cI as real else 0.0;
    var r0 := if gamma != 0.0 then beta / gamma else 0.0;
    Stats(lambda, beta, gamma, r0, r0 * cS as real / NUM_PEOPLE as real)
  }

  /**
   * The infectious count cancels out of R0: with S, I and dR non-zero,
   * R0 = (−dS/S)·N/dR, the susceptibles lost per susceptible times N per recovery.
   */
  lemma R0IndependentOfInfectious(cS: int, cI: int, dS: int, dR: int)
    requires cS != 0 && cI != 0 && dR != 0
    ensures Estimate(cS, cI, dS, dR).r0 * dR as real * cS as real == -dS as real * NUM_PEOPLE as real
  {
    var st := Estimate(cS, cI, dS, dR);
    var n, s, i, r := NUM_PEOPLE as real, cS as real, cI as real, dR as real;
    assert st.gamma * i == r;
    assert st.gamma != 0.0;
    assert st.r0 * st.gamma == st.beta;
    assert st.beta * i == st.lambda * n;
    calc {
      st.r0 * r * s;
      st.r0 * (st.gamma * i) * s;
      (st.r0 * st.gamma) * i * s;
      st.beta * i * s;
      st.lambda * n * s;
      (st.lambda * s) * n;
      -dS as real * n;
    }
  }

  /**
   * The sampled history: the group sizes once per hour, and the rate estimates once per day,
   * which start with an all-zero entry.
   */
  class History {
    var samples: seq<Sample>
    var stats: seq<Stats>

    constructor()
      ensures samples == [] && stats == [Stats(0.0, 0.0, 0.0, 0.0, 0.0)]
    {
      samples := [];
      stats := [Stats(0.0, 0.0, 0.0, 0.0, 0.0)];
    }

    /**
     * Counts the people in each state and records the counts at time `now`; asks to stop
     * once nobody is infectious.
     */
    method UpdateGroups(people: seq<Person>, now: real) returns (stop: bool)
      modifies this`samples
      ensures |samples| == |old(samples)| + 1 && samples[..|old(samples)|] == old(samples)
      ensures var last := samples[|samples| - 1];
              last.t == now && last.s + last.i + last.r == |people|
              && last.s == CountOf(StatesOf(people), Susceptible)
              && last.i == CountOf(StatesOf(people), Infectious)
              && last.r == CountOf(StatesOf(people), Recovered)
              && (stop <==> last.i == 0)
    {
      var cS, cI, cR := Count(people);
      samples := samples + [Sample(now, cS, cI, cR)];
      stop := cI == 0;
    }

    /**
     * Estimates the rates over the last window of samples and appends the estimate; asks to
     * stop once nobody is infectious. With fewer than a window's worth of samples, nothing
     * is appended.
     */
    method UpdateStats() returns (stop: bool)
      modifies this`stats
      ensures |samples| <= STATS_SAMPLE_TIME ==> stats == old(stats) && !stop
      ensures |samples| > STATS_SAMPLE_TIME ==>
                var now, before := samples[|samples| - 1], samples[|samples| - 1 - STATS_SAMPLE_TIME];
                stats == old(stats) + [Estimate(now.s, now.i, now.s - before.s, now.r - before.r)]
                && (stop <==> now.i == 0)
    {
      if |samples| <= STATS_SAMPLE_TIME {
        return false;
      }
      var now, before := samples[|samples| - 1], samples[|samples| - 1 - STATS_SAMPLE_TIME];
      stats := stats + [Estimate(now.s, now.i, now.s - before.s, now.r - before.r)];
      stop := now.i == 0;
    }
  }

  /** The number of people in each state; together they are everybody. */
  method Count(people: seq<Person>) returns (cS: nat, cI: nat, cR: nat)
    ensures cS == CountOf(StatesOf(people), Susceptible)
    ensures cI == CountOf(StatesOf(people), Infectious)
    ensures cR == CountOf(StatesOf(people), Recovered)
    ensures cS + cI + cR == |people|
  {
    cS, cI, cR := 0, 0, 0;
    ghost var states := StatesOf(people);
    for j := 0 to |people|
      invariant cS == CountOf(states[..j], Susceptible)
      invariant cI == CountOf(states[..j], Infectious)
      invariant cR == CountOf(states[..j], Recovered)
    {
      var st := people[j].state;
      assert states[..j + 1] == states[..j] + [st];
      CountOfSnoc(states[..j], st, Susceptible);
      CountOfSnoc(states[..j], st, Infectious);
      CountOfSnoc(states[..j], st, Recovered);
      if st == Susceptible {
        cS := cS + 1;
      } else if st == Infectious {
        cI := cI + 1;
      } else {
        cR := cR + 1;
      }
    }
    assert states[..|people|] == states;
    CountsSumToLength(states);
  }
}

=== FILE: wrappers.dfy ===
/** Option and Result wrappers shared by the simulation modules. */
module Wrappers {

  /** A value that may be absent; Python's `None` is `None` here. */
  datatype Option<+T> = None | Some(value: T)

  /** The outcome of a computation that may raise; `Failure` carries the exception kind. */
  datatype Result<+T, +E> = Success(value: T) | Failure(error: E)
}
